=== FILE: README.md ===
# vBuilder Composer plugin: package walk and code generation in Dafny

This project models the core of the Composer plugin `vBuilder\Composer\Plugin`.
After Composer dumps its autoloader, the plugin does the following:

- It collects the project's packages. The root package comes first, alias chains are unwrapped and duplicates are dropped.
- It walks the packages once and builds three PHP arrays:
  - the container parameters `pkg`, keyed by the first segment of each package name;
  - the list of existing `config.neon` files;
  - the map from Nette extension names to classes.
- During the same walk it writes each package's *fake autoload files*. These are small PHP files that forward to Composer's real `autoload.php`. Git is optionally told to ignore them.
- It sorts the top-level parameter keys with `ksort`.
- It writes `vendor/composer/vbuilder_bootstrap.php`. In that file, absolute paths below the vendor directory are rewritten into `$vendorDir . '/…'` expressions.

## How the model is built

Everything is modelled as pure functions over immutable values:

- **PHP arrays** are sequences of key/value pairs (`OrderedMap`). Overwriting a key keeps its position, and a new key is appended.
- **PHP values** are a variant type (`Php.Value`).
- **Packages**: an alias wraps another package (`Packages.Pkg`).
- **File writes** are returned as `(path, content)` values.

Everything the plugin asks of Composer, PHP's runtime or the operating system is a field of `Environment.Env`:

- the project and vendor directories, given as the values `normalizePath(realpath(…))` returns, and `normalizePath` itself;
- Composer's install path of a non-root package;
- `dirname`, `basename` and `findShortestPath`;
- `file_exists` and `is_dir`;
- the git exit status;
- `var_export` of the parameter array;
- the random class-name suffix.

## Modules

| Module | What it covers |
|---|---|
| `Sequences` | first-seen de-duplication (`in_array` plus append) and `Filter` |
| `Strings` | `str_replace` (left to right, non-overlapping), `explode`/`implode`, `rtrim`, `strcmp` order |
| `OrderedMap` | PHP array lookup and assignment, and `ksort` |
| `Php` | `isset` on nested offsets, the `(array)` cast, string conversion, `var_export` of scalars |
| `Packages` | `getPackages` |
| `Aggregation` | one iteration of the walk and the fold over all packages |
| `PathTranslation` | `translateBootstrapPath` |
| `Bootstrap` | the config and extension blocks and the bootstrap file template |
| `FakeAutoload` | `generateFakeAutoloadFile` |
| `Plugin` | the walk, including the fake autoload files and the exception that ends it, and `onPostAutoloadDump` |

## A behaviour of the code that the model keeps

The fake autoload file is written to the path exactly as the package declares it (src/Plugin.php line 360). PHP resolves that path against the working directory. The existence check uses `<installPath>/<dirname>` (lines 325 and 335), and the displayed path adds `/<basename>` (lines 329-332).

- For the root package the two coincide.
- For a dependency they do not: the file lands below the project directory.

The model writes where the code writes. `FakeAutoload.WriteIgnoresInstallPath` shows a concrete case: a dependency's target `vendor/autoload.php` is checked inside the dependency's directory, but written over the project's own autoloader path.

## Model

| member | source | states |
|---|---|---|
| Packages.GetPackages | src/Plugin.php:82-104 | The result starts with the resolved root package. It holds each alias-resolved input exactly once and nothing else, in the order of first appearance. It equals the first-seen de-duplication of the resolved list. |
| Sequences.DedupMembers | src/Plugin.php:99-100 | De-duplication keeps exactly the elements of its input. |
| Sequences.DedupDistinct | src/Plugin.php:99-100 | De-duplication leaves no two equal elements. |
| Sequences.DedupFirstSeenOrder | src/Plugin.php:99-100 | Kept elements appear in the order of their first occurrence in the input. |
| Sequences.DedupHead | src/Plugin.php:91-100 | The first input element is always the first output element. |
| Sequences.DedupOfDedupPrefix | src/Plugin.php:93-101 | De-duplicating a prefix first does not change the result, so the loop's running list is the de-duplication of what it has seen. |
| Sequences.DedupOfDistinct | src/Plugin.php:99-100 | A list without repetitions is kept as it is. |
| Strings.Split | src/Plugin.php:176 | `explode` returns at least one token. No token contains the separator. There is one token more than the number of separators. |
| Strings.JoinSplit | src/Plugin.php:176 | Joining the tokens of `explode` with the separator gives back the name. |
| Strings.SplitJoin | src/Plugin.php:176 | Splitting the join of separator-free tokens gives back the tokens. |
| Strings.SplitPrefix | src/Plugin.php:176 | A separator-free first segment is the first token, and the rest is split on its own. |
| Strings.RTrim | src/Plugin.php:342 | `rtrim` returns a prefix that does not end in the character, and only that character was removed. |
| Strings.ReplaceAllNoMatch | src/Plugin.php:227-231 | `str_replace` returns a text without an occurrence unchanged. |
| Strings.ReplaceAllChanges | src/Plugin.php:227-231 | A text with an occurrence is changed when the replacement starts differently from the needle. |
| Strings.ReplaceAllConcat | src/Plugin.php:227-231 | When no occurrence straddles the seam, replacing in a concatenation is replacing in each part. |
| Strings.LexLeqTotal | src/Plugin.php:215 | The `strcmp` order used by `ksort` compares any two keys. |
| Strings.LexLeqTransitive | src/Plugin.php:215 | The `strcmp` order is transitive. |
| Strings.LexLeqAntisymmetric | src/Plugin.php:215 | Two keys ordered both ways are equal. |
| OrderedMap.GetSpec | src/Plugin.php:180 | A lookup fails exactly for an absent key. A found value is one of the map's entries. |
| OrderedMap.SetSpec | src/Plugin.php:201 | Assignment appends a new key and keeps an existing key in place. The key then maps to the new value, and every other key keeps its value. |
| OrderedMap.SetAllLastWrite | src/Plugin.php:200-202 | After a series of assignments, a key holds the value of its last assignment. |
| OrderedMap.SetAllUnwritten | src/Plugin.php:200-202 | A key no assignment touches keeps its value. |
| OrderedMap.SetAllKeys | src/Plugin.php:200-202 | After a series of assignments, the keys are the old keys, then each new key where it was first assigned. |
| OrderedMap.SetAllAppend | src/Plugin.php:198-202 | Two series of assignments in a row are one series. |
| OrderedMap.KSort | src/Plugin.php:215 | `ksort` returns the same entries, sorted by key. |
| OrderedMap.KSortGet | src/Plugin.php:215 | With unique keys, `ksort` keeps keys unique and every key's value. |
| OrderedMap.InsertGet | src/Plugin.php:215 | Inserting a new key into a sorted map keeps keys unique and stores the value. |
| Php.Field | src/Plugin.php:198 | `isset($extra['vbuilder'])` holds exactly when the value is an array with that key bound to a non-null value, which is returned. |
| Php.EscapeRoundTrip | src/Plugin.php:252 | A string literal produced by `var_export` reads back as the original string. |
| Php.EscapePlain | src/Plugin.php:252 | A string without quotes or backslashes is exported verbatim between quotes. |
| Php.DigitsRoundTrip | src/Plugin.php:267 | The digits of a non-negative integer key read back as that integer. |
| Php.DecimalRoundTrip | src/Plugin.php:267 | The decimal form `var_export` writes for any integer key, a negative one with its minus sign, reads back as that integer. |
| Aggregation.Extensions | src/Plugin.php:198-199 | An unset or null `extra.vbuilder.extensions` declares nothing. An array declares its own entries in order, and a scalar is one entry under key 0. |
| Aggregation.FakeTargets | src/Plugin.php:206-207 | An unset or null `extra.vbuilder.fake-autoloader-files` lists no path. An array lists its values' string forms in order, and a scalar lists its own string form. |
| Aggregation.RootConfigFirst | src/Plugin.php:132-136 | The root package, walked first, has its `config.neon` looked up in the project directory. The file heads the config list when it exists there, and otherwise the list holds only the other packages' files. |
| Aggregation.InsertParamSpec | src/Plugin.php:176-190 | With exactly two name tokens, `pkg[t0][t1]` becomes `{dir: path}`, and the siblings under `t0` survive in order. Otherwise `pkg[t0]` becomes `{dir: path}`. No other first segment changes. |
| Aggregation.InsertParamKeys | src/Plugin.php:176-190 | Recording a package keeps the first-segment order and appends a segment that was new. |
| Sequences.FilterMembers | src/Plugin.php:192-195 | Filtering keeps exactly the elements that pass the test, and never lengthens the list. |
| Sequences.FilterAppend | src/Plugin.php:192-195 | Filtering a concatenation filters each part, in order. |
| Aggregation.AggregateConfigFiles | src/Plugin.php:168-195 | Folding one loop iteration (`AddPackage`) over the packages (`AggregateFrom`), the config list is, in package order, exactly the `<installPath>/config.neon` paths that exist. |
| Aggregation.AggregateExtensions | src/Plugin.php:168-202 | Over the fold of `AddPackage`, the extension map is all packages' declarations applied as assignments, in package order. |
| Aggregation.AggregateParamKeys | src/Plugin.php:168-190 | Over the fold of `AddPackage`, the parameter keys are the packages' first name segments, each once, in first-seen order. |
| Aggregation.ExtensionKeysAfterWalk | src/Plugin.php:198-202 | After the walk, the extension names are the declared names, each once, in first-declared order. |
| Aggregation.UndeclaredExtensionAbsent | src/Plugin.php:198-202 | After the walk, a name no package declares is absent from the extension map. |
| Aggregation.LastDeclarationWins | src/Plugin.php:198-202 | After the walk, a declared name holds the class of its last declaration. |
| Aggregation.SortedParamsAfterWalk | src/Plugin.php:215 | After `ksort`, the entries are those the walk built, sorted and unique by first segment. The keys are exactly the packages' first segments, and each sub-map is unchanged. |
| PathTranslation.TranslateUnchangedIff | src/Plugin.php:226-232 | The translation leaves a text unchanged exactly when `'<vendorDir>/` does not occur in it. |
| PathTranslation.TranslateSkipsUnquoted | src/Plugin.php:226-232 | Text without a quote is copied through unchanged. |
| PathTranslation.TranslateQuotedVendorPath | src/Plugin.php:226-232 | A quoted path below the vendor directory becomes a `$vendorDir` expression with the rest of the path kept. |
| PathTranslation.TranslateQuotedVendorDir | src/Plugin.php:226-232 | The quoted vendor directory itself, with no slash after it, is not translated. |
| Bootstrap.GenerateBootstrapSpec | src/Plugin.php:234-311 | The bootstrap goes to `<vendorDir>/composer/vbuilder_bootstrap.php`. After the generated header it declares `class vBuilderBootstrap<suffix>`, and it ends by calling `init` on that same class. |
| Bootstrap.TranslateConfigLine | src/Plugin.php:252-254 | Translating one `addConfig` call gives a `$vendorDir` form for a file below the vendor directory and the quoted absolute path otherwise. The rest of the text is translated on its own. |
| Bootstrap.ConfigLinesTranslated | src/Plugin.php:251-254 | The translated config calls are the per-file translated calls, in list order. |
| Bootstrap.ConfigBlockSpec | src/Plugin.php:249-257 | No config files gives `// None.`. Otherwise the block is one `addConfig` per file, in list order, each path translated. |
| Bootstrap.ExtensionBlockSpec | src/Plugin.php:260-274 | An empty map gives `// None.`. Otherwise one `onCompile[]` closure holds every entry's `addExtension` line at its map position, each preceded by the earlier entries' lines and followed by the later ones'. |
| Sequences.ConcatMapAt | src/Plugin.php:264-267 | Element `i`'s line lies between the lines of the elements before it and those after it. |
| FakeAutoload.IncludePath | src/Plugin.php:342 | The include path starts with `/` and ends in exactly one `/` before `autoload.php`. Between them sits the relative path with its trailing slashes dropped. |
| FakeAutoload.IncludePathNormalises | src/Plugin.php:342 | However many slashes end the relative path, the include path is `/<path>/autoload.php`. |
| FakeAutoload.ForwardingRoundTrip | src/Plugin.php:342-356 | The forwarding file includes exactly the include path it was generated for, whatever characters the path holds. |
| FakeAutoload.ForwardingIsNotBootstrap | src/Plugin.php:276-305 | A forwarding file and the bootstrap file share the generated header, but only the forwarding file continues with `return include`. |
| FakeAutoload.FakeAutoloadFile | src/Plugin.php:321-373 | A missing target directory is skipped, with no write. Otherwise the forwarding file is written to the declared path. It fails exactly when `.git` exists and git exits non-zero. A successful write is marked exactly when `.git` exists. |
| FakeAutoload.GitOnlyInRepository | src/Plugin.php:334-372 | Without the target directory, or without `.git`, the outcome does not depend on git, so git is not consulted. |
| FakeAutoload.WriteIgnoresInstallPath | src/Plugin.php:324-360 | For a dependency, the checked directory lies in the dependency's install path while the write goes to the raw declared path. |
| Plugin.CollectSpec | src/Plugin.php:206-210 | A package's fake files throw exactly when one outcome fails. Only outcomes' files are written, and no more files than outcomes. Without an exception every path reports. |
| Plugin.CollectWithoutFailure | src/Plugin.php:208-209 | Without a failure, a package's fake run writes the file of every path that is not skipped and reports every notice, both in path order. |
| Plugin.CollectUpToFailure | src/Plugin.php:208-209 | With a first failure at path `i`, the run writes the files of the paths up to and including `i` that are not skipped, reports their notices, and throws that failure's exception. |
| Plugin.CollectStopsAtFirstFailure | src/Plugin.php:208-209 | The exception is the first failing path's. Every path before it was skipped or written. |
| Plugin.RunFakesFails | src/Plugin.php:205-210 | A package's fake autoload run throws exactly when one of its declared paths has an existing target directory and `.git` directory and git exits non-zero. |
| Plugin.RunFakesWritesForwarding | src/Plugin.php:205-210 | Every file a package's fake autoload run writes is a forwarding file. |
| Plugin.WalkAggregates | src/Plugin.php:168-211 | A walk that completes builds exactly the parameters, config files and extensions of the aggregation fold alone. |
| Plugin.WalkAbortsIff | src/Plugin.php:168-211 | The walk aborts exactly when git fails to mark some declared fake autoload path of some package. |
| Plugin.WalkCompletes | src/Plugin.php:168-211 | When no package's fake files throw, the walk completes with the fold's aggregates, and its writes and notices are the packages' fake runs' concatenated in package order. |
| Plugin.WalkAbortsAt | src/Plugin.php:168-211 | When package `i` is the first whose fake files throw, the walk aborts with that exception after the writes and notices of the packages up to and including `i`, in package order. |
| Plugin.WalkWritesForwarding | src/Plugin.php:205-210 | Every file the walk writes is a forwarding file. |
| Plugin.DumpOfSpec | src/Plugin.php:168-222 | For a collected package list, the bootstrap is written, last, exactly when no package's fake autoload files throw, and it is the bootstrap for the fold's aggregates. The writes before it are the packages' fake forwarding files, in package order. Every write of a run that throws is a forwarding file. |
| Plugin.OnPostAutoloadDump | src/Plugin.php:143-223 | The bootstrap is written, last, exactly when no fake autoload file throws. It holds the fold's aggregates with the top-level keys sorted. The writes before it are the packages' fake forwarding files, in package order. Every write of a run that throws is a forwarding file, so such a run leaves no bootstrap. |

## Left out

- `activate`, `getSubscribedEvents` and Composer's repository and installation managers are Composer wiring. The model takes the root package and the installed packages as a list, and install paths as a function.
- `realpath` is applied before the model starts: the project and vendor directories are given as its normalised results. `Filesystem::normalizePath`, `findShortestPath`, `dirname` and `basename` are library and operating-system behaviour. They are fields of `Env` and are not interpreted.
- `file_exists` and `is_dir` are I/O and become predicates in `Env`. `file_put_contents` becomes a returned `FileWrite`.
- The git command line and `ProcessExecutor` are external processes. Only the exit status is modelled.
- The `md5(uniqid())` class-name suffix is random, so it is a parameter.
- `var_export` of the nested parameter array is PHP's serialisation format, so it is a parameter. The path translation and the `"\n"` re-indentation applied to its output are modelled, but nothing is proved about that text.
- `io->write` messages are kept as strings but carry no property.
- PHP turns numeric-string keys such as `"123"` into integer keys, and `ksort` compares mixed keys specially. First name segments are kept as strings and sorted in `strcmp` order, and name tokens used as inner keys stay string keys.
- Floating-point values in `extra` are not modelled, and neither is their string conversion.
- `var_export` writes a string containing NUL bytes as a concatenation. The model quotes every string as one literal.
- Bootstrap.ConfigBlockSpec: proved only for config paths without quotes or backslashes, and for a vendor directory without a quote that does not start with `)`. Other paths are still translated by the same function, but the per-file form is not stated for them.
- Bootstrap.TranslateConfigLine: same restriction as `Bootstrap.ConfigBlockSpec`.
- Bootstrap.ConfigLinesTranslated: same restriction as `Bootstrap.ConfigBlockSpec`.
- Aggregation.FakeTargets: an array entry in `fake-autoloader-files` becomes the path `Array`, PHP's string form of an array. The code passes the array itself to `dirname`, `basename` and `file_put_contents` (src/Plugin.php lines 325-326 and 360). PHP 8 throws a `TypeError` there, which ends the run. PHP 5 and 7 warn, those calls return null and no file is written. Neither outcome is modelled.
- Every `FileWrite` is assumed to succeed. `file_put_contents` can fail (src/Plugin.php lines 310 and 360), and the code ignores its result.
- Aggregation.FakeTargets: a declared fake path of `""`, `null` or `false` becomes the empty path. `dirname('')` is empty, so the checked directory is the install path itself and the model records `FileWrite("", …)` and goes on to git. PHP 8's `file_put_contents('')` throws a `ValueError` that ends the run, and PHP 7 warns and writes nothing. Neither outcome is modelled.
- PHP strings are byte strings, but the model uses Dafny's `char` sequences. Paths or names that are not valid UTF-8 are outside the model.
- `ParametersText` (the parameter block) has no contract, because its input comes from the `var_export` parameter.

=== FILE: aggregation.dfy ===
/**
 * The walk over the collected packages in `onPostAutoloadDump`: for each
 * package, record its install path in the container parameters, pick up
 * its `config.neon`, and merge the extensions its `extra.vbuilder` block
 * declares. Read as a left fold over the package list.
 */
module Aggregation {
  import opened Wrappers
  import opened Sequences
  import opened Strings
  import opened OrderedMap
  import opened Php
  import opened Packages
  import opened Environment

  /** `$bootstrapParameters['pkg']`: first name segment to a PHP array. */
  type ParamMap = OMap<string, OMap<Key, Value>>

  /** `array('dir' => $installPath)`. */
  function DirInfo(path: string): OMap<Key, Value>
  {
    [(StrKey("dir"), Str(path))]
  }

  /**
   * Records one package: a name of exactly two `/`-segments goes to
   * `pkg[t0][t1]`, creating `pkg[t0]` only when unset; any other name
   * overwrites `pkg[t0]`.
   */
  function InsertParam(params: ParamMap, name: string, path: string): ParamMap
  {
    var tokens := Split(name, '/');
    if |tokens| == 2 then
      var inner := Get(params, tokens[0]).GetOr([]);
      Set(params, tokens[0], Set(inner, StrKey(tokens[1]), Arr(DirInfo(path))))
    else
      Set(params, tokens[0], DirInfo(path))
  }

  /** Recording a package keeps the first-segment order and appends a new segment. */
  lemma InsertParamKeys(params: ParamMap, name: string, path: string)
    ensures var t0 := Split(name, '/')[0];
      Keys(InsertParam(params, name, path)) ==
        (if t0 in Keys(params) then Keys(params) else Keys(params) + [t0])
  {
    var t := Split(name, '/');
    if |t| == 2 {
      SetSpec(params, t[0], Set(Get(params, t[0]).GetOr([]), StrKey(t[1]), Arr(DirInfo(path))));
    } else {
      SetSpec(params, t[0], DirInfo(path));
    }
  }

  /**
   * What recording a package does. With one `/` in the name, `t0/t1`
   * gets `{dir: path}` and the siblings already under `t0` survive, in
   * their order; otherwise `t0` is replaced by `{dir: path}`. No other first
   * segment changes, and a new first segment goes last.
   */
  lemma InsertParamSpec(params: ParamMap, name: string, path: string)
    ensures var t := Split(name, '/'); var r := InsertParam(params, name, path);
      && Keys(r) == (if t[0] in Keys(params) then Keys(params) else Keys(params) + [t[0]])
      && (forall k :: k != t[0] ==> Get(r, k) == Get(params, k))
      && (multiset(name)['/'] == 1 ==>
            var prev := Get(params, t[0]).GetOr([]);
            && name == t[0] + "/" + t[1]
            && Get(r, t[0]).Some?
            && Get(Get(r, t[0]).value, StrKey(t[1])) == Some(Arr(DirInfo(path)))
            && (forall k :: k != StrKey(t[1]) ==> Get(Get(r, t[0]).value, k) == Get(prev, k))
            && Keys(Get(r, t[0]).value) ==
                 (if StrKey(t[1]) in Keys(prev) then Keys(prev) else Keys(prev) + [StrKey(t[1])]))
      && (multiset(name)['/'] != 1 ==> Get(r, t[0]) == Some(DirInfo(path)))
  {
    var t := Split(name, '/');
    if |t| == 2 {
      var prev := Get(params, t[0]).GetOr([]);
      var inner := Set(prev, StrKey(t[1]), Arr(DirInfo(path)));
      SetSpec(prev, StrKey(t[1]), Arr(DirInfo(path)));
      SetSpec(params, t[0], inner);
      JoinSplit(name, '/');
    } else {
      SetSpec(params, t[0], DirInfo(path));
    }
  }

  /** The three arrays the walk builds. */
  datatype Aggregate = Aggregate(
    params: ParamMap,
    configFiles: seq<string>,
    extensions: OMap<Key, Value>)

  const Empty := Aggregate([], [], [])

  /** `<installPath>/config.neon` of a package. */
  function ConfigPath(env: Env, p: Package): string
  {
    InstallPath(env, p) + "/config.neon"
  }

  /**
   * The name/class pairs `extra.vbuilder.extensions` declares, after the
   * `(array)` cast: none when the field is unset or null, an array's own
   * entries in order, and a scalar as the one entry under key 0.
   */
  function Extensions(extra: Value): (r: OMap<Key, Value>)
    ensures var f := Field2(extra, "vbuilder", "extensions");
      && (f.None? ==> r == [])
      && (f.Some? && f.value.Arr? ==> r == f.value.entries)
      && (f.Some? && !f.value.Arr? ==> r == [(IntKey(0), f.value)])
  {
    match Field2(extra, "vbuilder", "extensions")
    case Some(v) => ArrayCast(v)
    case None => []
  }

  /**
   * The target paths `extra.vbuilder.fake-autoloader-files` lists, after
   * the `(array)` cast and PHP's string conversion: none when the field is
   * unset or null, an array's values in order, and a scalar as its own
   * string form.
   */
  function FakeTargets(extra: Value): (r: seq<string>)
    ensures var f := Field2(extra, "vbuilder", "fake-autoloader-files");
      && (f.None? ==> r == [])
      && (f.Some? && f.value.Arr? ==>
            |r| == |f.value.entries| && forall i :: 0 <= i < |r| ==> r[i] == ToPhpString(f.value.entries[i].1))
      && (f.Some? && !f.value.Arr? ==> r == [ToPhpString(f.value)])
  {
    match Field2(extra, "vbuilder", "fake-autoloader-files")
    case Some(v) =>
      var files := ArrayCast(v);
      seq(|files|, i requires 0 <= i < |files| => ToPhpString(files[i].1))
    case None => []
  }

  /** One iteration of the walk, without the fake autoload files. */
  function AddPackage(acc: Aggregate, p: Package, env: Env): Aggregate
  {
    var path := InstallPath(env, p);
    var config := ConfigPath(env, p);
    Aggregate(
      InsertParam(acc.params, p.name, path),
      if env.fileExists(config) then acc.configFiles + [config] else acc.configFiles,
      SetAll(acc.extensions, Extensions(p.extra)))
  }

  /** The walk over a package list, starting from `acc`. */
  function AggregateFrom(acc: Aggregate, ps: seq<Package>, env: Env): Aggregate
    decreases |ps|
  {
    if |ps| == 0 then acc
    else AggregateFrom(AddPackage(acc, ps[0], env), ps[1..], env)
  }

  /** Where every package's `config.neon` would be, in package order. */
  function ConfigCandidates(ps: seq<Package>, env: Env): seq<string>
  {
    if |ps| == 0 then [] else [ConfigPath(env, ps[0])] + ConfigCandidates(ps[1..], env)
  }

  /** All extension declarations of a package list, in package order. */
  function Declarations(ps: seq<Package>): OMap<Key, Value>
  {
    if |ps| == 0 then [] else Extensions(ps[0].extra) + Declarations(ps[1..])
  }

  /** The first name segment of every package, in package order. */
  function FirstSegments(ps: seq<Package>): seq<string>
  {
    if |ps| == 0 then [] else [Split(ps[0].name, '/')[0]] + FirstSegments(ps[1..])
  }

  /** One step of the walk on the config-file list. */
  lemma AddPackageConfig(acc: Aggregate, p: Package, env: Env)
    ensures AddPackage(acc, p, env).configFiles ==
      acc.configFiles + Filter([ConfigPath(env, p)], env.fileExists)
  {
  }

  /** Appending the filtered head, then the filtered tail, is appending the filtered whole. */
  lemma FilterStep(prev: seq<string>, next: seq<string>, c: string, tail: seq<string>, keep: string -> bool)
    requires next == prev + Filter([c], keep)
    ensures next + Filter(tail, keep) == prev + Filter([c] + tail, keep)
  {
    FilterAppend([c], tail, keep);
  }

  /**
   * The config-file list grows by exactly the `config.neon` paths that
   * exist, in package order.
   */
  lemma {:induction false} AggregateConfigFiles(acc: Aggregate, ps: seq<Package>, env: Env)
    ensures AggregateFrom(acc, ps, env).configFiles ==
      acc.configFiles + Filter(ConfigCandidates(ps, env), env.fileExists)
    decreases |ps|
  {
    if |ps| == 0 {
      assert acc.configFiles + [] == acc.configFiles;
    } else {
      var acc' := AddPackage(acc, ps[0], env);
      AggregateConfigFiles(acc', ps[1..], env);
      AddPackageConfig(acc, ps[0], env);
      assert ConfigCandidates(ps, env) == [ConfigPath(env, ps[0])] + ConfigCandidates(ps[1..], env);
      FilterStep(acc.configFiles, acc'.configFiles, ConfigPath(env, ps[0]), ConfigCandidates(ps[1..], env), env.fileExists);
    }
  }

  /**
   * `getInstallPath` in the walk: the root project, walked first, has its
   * `config.neon` looked up in the project directory; the file heads the
   * config-file list when it exists there, and otherwise the list holds
   * only the other packages' files.
   */
  lemma RootConfigFirst(ps: seq<Package>, env: Env)
    requires |ps| > 0 && ps[0].root
    ensures var files := AggregateFrom(Empty, ps, env).configFiles;
      var own := env.basePath + "/config.neon";
      && (env.fileExists(own) ==> files == [own] + Filter(ConfigCandidates(ps[1..], env), env.fileExists))
      && (!env.fileExists(own) ==> files == Filter(ConfigCandidates(ps[1..], env), env.fileExists))
  {
    AggregateConfigFiles(Empty, ps, env);
    FilterAppend([ConfigPath(env, ps[0])], ConfigCandidates(ps[1..], env), env.fileExists);
  }

  /** The extension map is the run of all declared writes, package by package. */
  lemma {:induction false} AggregateExtensions(acc: Aggregate, ps: seq<Package>, env: Env)
    ensures AggregateFrom(acc, ps, env).extensions == SetAll(acc.extensions, Declarations(ps))
    decreases |ps|
  {
    if |ps| == 0 {
    } else {
      var acc' := AddPackage(acc, ps[0], env);
      AggregateExtensions(acc', ps[1..], env);
      SetAllAppend(acc.extensions, Extensions(ps[0].extra), Declarations(ps[1..]));
    }
  }

  /**
   * The first-segment keys of the parameters: the old ones, then each new
   * first segment where it first appears.
   */
  lemma {:induction false} AggregateParamKeys(acc: Aggregate, ps: seq<Package>, env: Env)
    requires Distinct(Keys(acc.params))
    ensures Keys(AggregateFrom(acc, ps, env).params) == Dedup(Keys(acc.params) + FirstSegments(ps))
    decreases |ps|
  {
    if |ps| == 0 {
      DedupOfDistinct(Keys(acc.params));
      assert Keys(acc.params) + FirstSegments(ps) == Keys(acc.params);
    } else {
      var acc' := AddPackage(acc, ps[0], env);
      var t0 := Split(ps[0].name, '/')[0];
      var k := Keys(acc.params);
      InsertParamKeys(acc.params, ps[0].name, InstallPath(env, ps[0]));
      assert Distinct(Keys(acc'.params)) by {
        if t0 !in k {
          DistinctSnoc(k, t0);
        }
      }
      AggregateParamKeys(acc', ps[1..], env);
      DedupStep(k, t0, FirstSegments(ps[1..]));
    }
  }

  /** After the whole walk the extension names are the declared ones, in the order of first declaration. */
  lemma ExtensionKeysAfterWalk(ps: seq<Package>, env: Env)
    ensures Keys(AggregateFrom(Empty, ps, env).extensions) == Dedup(Keys(Declarations(ps)))
  {
    var d := Declarations(ps);
    AggregateExtensions(Empty, ps, env);
    SetAllKeys([], d);
    assert [] + Keys(d) == Keys(d);
  }

  /** An extension name no package declares is absent after the walk. */
  lemma UndeclaredExtensionAbsent(ps: seq<Package>, env: Env, name: Key)
    requires forall i :: 0 <= i < |Declarations(ps)| ==> Declarations(ps)[i].0 != name
    ensures Get(AggregateFrom(Empty, ps, env).extensions, name) == None
  {
    AggregateExtensions(Empty, ps, env);
    SetAllUnwritten([], Declarations(ps), name);
  }

  /** A declared extension name holds the class of its last declaration after the walk. */
  lemma LastDeclarationWins(ps: seq<Package>, env: Env, i: nat)
    requires i < |Declarations(ps)|
    requires forall j :: i < j < |Declarations(ps)| ==> Declarations(ps)[j].0 != Declarations(ps)[i].0
    ensures Get(AggregateFrom(Empty, ps, env).extensions, Declarations(ps)[i].0) == Some(Declarations(ps)[i].1)
  {
    AggregateExtensions(Empty, ps, env);
    SetAllLastWrite([], Declarations(ps), Declarations(ps)[i].0, i);
  }

  /**
   * After the whole walk and `ksort`: the first segments are in `strcmp`
   * order, each appears once, they are exactly the packages' first
   * segments, and every segment still holds what the walk put there.
   */
  lemma SortedParamsAfterWalk(ps: seq<Package>, env: Env)
    ensures var params := AggregateFrom(Empty, ps, env).params; var sorted := KSort(params);
      && SortedByKey(sorted)
      && multiset(sorted) == multiset(params)
      && Distinct(Keys(sorted))
      && (forall k :: k in Keys(sorted) <==> k in FirstSegments(ps))
      && (forall k :: Get(sorted, k) == Get(params, k))
  {
    var params := AggregateFrom(Empty, ps, env).params;
    AggregateParamKeys(Empty, ps, env);
    assert Keys(Empty.params) + FirstSegments(ps) == FirstSegments(ps);
    DedupDistinct(FirstSegments(ps));
    DedupMembers(FirstSegments(ps));
    KSortGet(params);
    forall k
      ensures k in Keys(KSort(params)) <==> k in Keys(params)
    {
      GetSpec(KSort(params), k);
      GetSpec(params, k);
    }
  }
}

=== FILE: bootstrap.dfy ===
/**
 * `generateBootstrap`: renders the container parameters, the config-file
 * calls and the extension registrations into `vbuilder_bootstrap.php`.
 */
module Bootstrap {
  import opened Sequences
  import opened Strings
  import opened OrderedMap
  import opened Php
  import opened Environment
  import opened PathTranslation
  import opened Aggregation

  /** The opening tag and doc comment of every file the plugin generates. */
  const GeneratedHeader: string :=
    "<?php\n\n/**\n * @warning This file is automatically generated by Composer.\n"
    + " * @see https://github.com/vbuilder/composer-plugin\n */\n\n"

  /** The placeholder for an empty block. */
  const NoneBlock: string := "// None.\n\t\t"

  /** The text of a config call before and after the exported file name. */
  const ConfigOpen: string := "$configurator->addConfig("
  const ConfigTail: string := ");\n\t\t"

  /** `$configurator->addConfig(<file>);` followed by the block indentation. */
  function ConfigLine(file: string): string
  {
    ConfigOpen + ExportString(file) + ConfigTail
  }

  function ConfigLines(files: seq<string>): string
  {
    if |files| == 0 then "" else ConfigLine(files[0]) + ConfigLines(files[1..])
  }

  /** The config-file block: one call per file, path-translated, or the placeholder. */
  function ConfigBlock(files: seq<string>, vendorDir: string): string
  {
    if |files| == 0 then NoneBlock else TranslateBootstrapPath(ConfigLines(files), vendorDir)
  }

  /** `$complier->addExtension(<name>, new <class>);` on its own line. */
  function ExtensionLine(name: Key, className: Value): string
  {
    "\n\t\t\t$complier->addExtension(" + ExportKey(name) + ", new " + ToPhpString(className) + ");"
  }

  /** One registration per entry, in map order. */
  function ExtensionLines(exts: OMap<Key, Value>): string
  {
    ConcatMap(exts, (e: (Key, Value)) => ExtensionLine(e.0, e.1))
  }

  const ClosureOpen: string := "$configurator->onCompile[] = function ($configurator, $complier) {"
  const ClosureClose: string := "\n\t\t};\n\t\t"

  /** The extension block: one registration per entry inside one closure, or the placeholder. */
  function ExtensionBlock(exts: OMap<Key, Value>): string
  {
    if |exts| == 0 then NoneBlock else ClosureOpen + ExtensionLines(exts) + ClosureClose
  }

  /** `$bootstrapParameters`: the parameter map under the key `pkg`. */
  function ParametersValue(params: ParamMap): Value
  {
    Arr([(StrKey("pkg"), Arr(seq(|params|, i requires 0 <= i < |params| =>
      (StrKey(params[i].0), Arr(params[i].1)))))])
  }

  /** The exported parameters, path-translated and re-indented. */
  function ParametersText(params: ParamMap, env: Env): string
  {
    ReplaceAll(TranslateBootstrapPath(env.exportValue(ParametersValue(params)), env.vendorDir), "\n", "\n\t\t")
  }

  /** Where the bootstrap file is written. */
  function BootstrapPath(vendorDir: string): string
  {
    vendorDir + "/composer/vbuilder_bootstrap.php"
  }

  /** The generated file: a class named with the suffix whose `init` applies the three blocks, then a call to it. */
  function BootstrapContent(suffix: string, parameters: string, configBlock: string, extensionBlock: string): string
  {
    GeneratedHeader + BootstrapClass(suffix, parameters, configBlock, extensionBlock)
  }

  /** The text after the header: the class and the call to its `init`. */
  function BootstrapClass(suffix: string, parameters: string, configBlock: string, extensionBlock: string): string
  {
    ClassName + suffix + InitHead + parameters + ConfigHead + configBlock + ExtensionHead + extensionBlock
    + ClassEnd + suffix + InitCall
  }

  /** The fixed text of the bootstrap class, between the pieces that vary. */
  const ClassStem: string := "vBuilderBootstrap"
  const ClassName: string := "class " + ClassStem
  const InitHead: string :=
    " {\n\n"
    + "\tstatic function init(Nette\\Configurator $configurator) {\n\n"
    + "\t\t$vendorDir = __DIR__ . '/..';\n\n"
    + "\t\t// Container parameters\n"
    + "\t\t$configurator->addParameters("
  const ConfigHead: string := ");\n\n\t\t// NEON config files\n\t\t"
  const ExtensionHead: string := "\n\n\t\t// Nette extensions\n\t\t"
  const ClassClose: string := "\n\t}\n\n}\n\n"
  const ClassEnd: string := ClassClose + ClassStem
  const InitCall: string := "::init($configurator);\n\n"

  /** `generateBootstrap` as the file write it performs. */
  function GenerateBootstrap(params: ParamMap, configFiles: seq<string>, exts: OMap<Key, Value>, env: Env): FileWrite
  {
    FileWrite(
      BootstrapPath(env.vendorDir),
      BootstrapContent(env.suffix, ParametersText(params, env),
        ConfigBlock(configFiles, env.vendorDir), ExtensionBlock(exts)))
  }

  /** The name of the generated class: fixed, then the per-run suffix. */
  function BootstrapClassName(suffix: string): string
  {
    ClassStem + suffix
  }

  /**
   * The bootstrap file goes to `composer/vbuilder_bootstrap.php` under the
   * vendor directory; after the generated header it declares the class
   * named with the run's suffix, and it ends by calling `init` on that same
   * class.
   */
  lemma GenerateBootstrapSpec(params: ParamMap, configFiles: seq<string>, exts: OMap<Key, Value>, env: Env)
    ensures var w := GenerateBootstrap(params, configFiles, exts, env);
      var n := BootstrapClassName(env.suffix);
      && w.path == env.vendorDir + "/composer/vbuilder_bootstrap.php"
      && GeneratedHeader + "class " + n <= w.content
      && |n + InitCall| <= |w.content|
      && w.content[|w.content| - |n + InitCall|..] == n + InitCall
  {
    var n := BootstrapClassName(env.suffix);
    var parameters := ParametersText(params, env);
    var configBlock := ConfigBlock(configFiles, env.vendorDir);
    var extensionBlock := ExtensionBlock(exts);
    Shape(GeneratedHeader, "class ", ClassStem, env.suffix, InitHead, parameters, ConfigHead, configBlock,
      ExtensionHead, extensionBlock, ClassClose, InitCall);
    Framed(GeneratedHeader + "class " + n,
      InitHead + parameters + ConfigHead + configBlock + ExtensionHead + extensionBlock + ClassClose, n + InitCall);
  }

  /** The bootstrap text regrouped as header and class name, class body, and the closing call. */
  lemma Shape(hd: string, x: string, stem: string, sfx: string, b: string, c: string, d: string, e: string,
              f: string, g: string, y: string, k: string)
    ensures hd + ((x + stem) + sfx + b + c + d + e + f + g + (y + stem) + sfx + k)
      == (hd + x + (stem + sfx)) + (b + c + d + e + f + g + y) + ((stem + sfx) + k)
  {
  }

  /** A string framed by a head and a tail starts with the head and ends with the tail. */
  lemma Framed(head: string, mid: string, tail: string)
    ensures head <= head + mid + tail
    ensures (head + mid + tail)[|head + mid|..] == tail
  {
  }

  /** A path without quotes or backslashes: `var_export` writes it verbatim between quotes. */
  predicate PlainPath(s: string)
  {
    '\'' !in s && '\\' !in s
  }

  /** A vendor directory whose quoted form cannot run into the text that follows a config path. */
  predicate PlainVendorDir(vendorDir: string)
  {
    '\'' !in vendorDir && (|vendorDir| == 0 || vendorDir[0] != ')')
  }

  /**
   * The quoted file argument of a config call after translation, without
   * its closing quote: a file below the vendor directory is addressed
   * through `$vendorDir`, any other file keeps its absolute path.
   */
  function TranslatedFile(file: string, vendorDir: string): string
  {
    if vendorDir + "/" <= file then Replacement + file[|vendorDir| + 1..] else "'" + file
  }

  /** How one `addConfig` call reads after translation. */
  function TranslatedConfigLine(file: string, vendorDir: string): string
  {
    ConfigOpen + TranslatedFile(file, vendorDir) + "'" + ConfigTail
  }

  function TranslatedConfigLines(files: seq<string>, vendorDir: string): string
  {
    if |files| == 0 then "" else TranslatedConfigLine(files[0], vendorDir) + TranslatedConfigLines(files[1..], vendorDir)
  }

  /** A quote followed by a path that is not below the vendor directory does not start an occurrence. */
  lemma NotNeedle(file: string, tail: string, vendorDir: string)
    requires '\'' !in vendorDir && '\'' !in file
    requires !(vendorDir + "/" <= file)
    ensures !(Needle(vendorDir) <= "'" + file + "'" + tail)
  {
    var v := vendorDir + "/";
    var s := "'" + file + "'" + tail;
    if |file| >= |v| {
      assert s[1..|v| + 1] == file[..|v|];
      assert Needle(vendorDir)[1..] == v;
    } else {
      assert s[|file| + 1] == '\'';
      assert v[|file|] != '\'';
    }
  }

  /** The closing quote of a config argument, followed by `)`, never starts an occurrence. */
  lemma TranslateClosingQuote(t: string, vendorDir: string)
    requires PlainVendorDir(vendorDir)
    requires |t| > 0 && t[0] == ')'
    ensures TranslateBootstrapPath("'" + t, vendorDir) == "'" + TranslateBootstrapPath(t, vendorDir)
  {
    assert !(Needle(vendorDir) <= "'" + t) by {
      if |Needle(vendorDir)| <= |"'" + t| {
        assert ("'" + t)[1] == ')';
        assert Needle(vendorDir)[1] != ')';
      }
    }
    TranslateAtQuote(t, vendorDir);
  }

  /** A quoted path below the vendor directory, followed by `)`. */
  lemma TranslateQuotedBelowVendor(rel: string, t: string, vendorDir: string)
    requires '\'' !in rel && PlainVendorDir(vendorDir)
    requires |t| > 0 && t[0] == ')'
    ensures TranslateBootstrapPath(Needle(vendorDir) + rel + "'" + t, vendorDir) ==
      Replacement + rel + "'" + TranslateBootstrapPath(t, vendorDir)
  {
    var q := "'" + t;
    TranslateClosingQuote(t, vendorDir);
    assert Needle(vendorDir) + rel + "'" + t == Needle(vendorDir) + (rel + q);
    TranslateAtNeedle(rel + q, vendorDir);
    TranslateSkipsUnquoted(rel, q, vendorDir);
  }

  /** A quoted path not below the vendor directory, followed by `)`, is kept. */
  lemma TranslateQuotedElsewhere(file: string, t: string, vendorDir: string)
    requires '\'' !in file && PlainVendorDir(vendorDir)
    requires !(vendorDir + "/" <= file)
    requires |t| > 0 && t[0] == ')'
    ensures TranslateBootstrapPath("'" + file + "'" + t, vendorDir) ==
      "'" + file + "'" + TranslateBootstrapPath(t, vendorDir)
  {
    var q := "'" + t;
    TranslateClosingQuote(t, vendorDir);
    NotNeedle(file, t, vendorDir);
    assert "'" + file + "'" + t == "'" + (file + q);
    TranslateAtQuote(file + q, vendorDir);
    TranslateSkipsUnquoted(file, q, vendorDir);
  }

  /** A quoted file name followed by `)`: the name is translated, the closing quote kept. */
  lemma TranslateQuotedFile(file: string, t: string, vendorDir: string)
    requires '\'' !in file && PlainVendorDir(vendorDir)
    requires |t| > 0 && t[0] == ')'
    ensures TranslateBootstrapPath("'" + file + "'" + t, vendorDir) ==
      TranslatedFile(file, vendorDir) + "'" + TranslateBootstrapPath(t, vendorDir)
  {
    var v := vendorDir + "/";
    if v <= file {
      var rel := file[|v|..];
      assert file == v + rel;
      assert "'" + file + "'" + t == Needle(vendorDir) + rel + "'" + t;
      TranslateQuotedBelowVendor(rel, t, vendorDir);
    } else {
      TranslateQuotedElsewhere(file, t, vendorDir);
    }
  }

  /** A config call with a plain file name, regrouped around the quoted name. */
  lemma ConfigLineShape(file: string, rest: string)
    requires PlainPath(file)
    ensures ConfigLine(file) + rest == ConfigOpen + ("'" + file + "'" + (ConfigTail + rest))
  {
    EscapePlain(file);
    Regroup(ConfigOpen, file, ConfigTail, rest);
  }

  /** Translating one `addConfig` call and what follows it. */
  lemma TranslateConfigLine(file: string, rest: string, vendorDir: string)
    requires PlainPath(file) && PlainVendorDir(vendorDir)
    ensures TranslateBootstrapPath(ConfigLine(file) + rest, vendorDir) ==
      TranslatedConfigLine(file, vendorDir) + TranslateBootstrapPath(rest, vendorDir)
  {
    var t := ConfigTail + rest;
    ConfigLineShape(file, rest);
    assert '\'' !in ConfigOpen && '\'' !in ConfigTail && ConfigTail[0] == ')';
    TranslateSkipsUnquoted(ConfigOpen, "'" + file + "'" + t, vendorDir);
    TranslateQuotedFile(file, t, vendorDir);
    TranslateSkipsUnquoted(ConfigTail, rest, vendorDir);
    Compose(ConfigOpen, TranslatedFile(file, vendorDir), ConfigTail, TranslateBootstrapPath(rest, vendorDir));
  }

  /** Regrouping a call around a quoted argument. */
  lemma Regroup(a: string, f: string, b: string, r: string)
    ensures a + ("'" + f + "'") + b + r == a + ("'" + f + "'" + (b + r))
  {
  }

  /** Regrouping a translated call. */
  lemma Compose(a: string, f: string, b: string, r: string)
    ensures a + (f + "'" + (b + r)) == a + f + "'" + b + r
  {
  }

  lemma Surround(a: string, p: string, l: string, q: string, b: string)
    ensures a + (p + l + q) + b == a + p + l + q + b
  {
  }

  /**
   * The config-file block: the placeholder for no files; otherwise one
   * `addConfig` call per file in list order, each below-vendor path turned
   * into a `$vendorDir` expression and every other path kept.
   */
  lemma {:induction false} ConfigBlockSpec(files: seq<string>, vendorDir: string)
    requires forall i :: 0 <= i < |files| ==> PlainPath(files[i])
    requires PlainVendorDir(vendorDir)
    ensures |files| == 0 ==> ConfigBlock(files, vendorDir) == NoneBlock
    ensures |files| > 0 ==> ConfigBlock(files, vendorDir) == TranslatedConfigLines(files, vendorDir)
  {
    if |files| > 0 {
      ConfigLinesTranslated(files, vendorDir);
    }
  }

  lemma {:induction false} ConfigLinesTranslated(files: seq<string>, vendorDir: string)
    requires forall i :: 0 <= i < |files| ==> PlainPath(files[i])
    requires PlainVendorDir(vendorDir)
    ensures TranslateBootstrapPath(ConfigLines(files), vendorDir) == TranslatedConfigLines(files, vendorDir)
  {
    if |files| == 0 {
      assert TranslateBootstrapPath("", vendorDir) == "";
    } else {
      TranslateConfigLine(files[0], ConfigLines(files[1..]), vendorDir);
      ConfigLinesTranslated(files[1..], vendorDir);
    }
  }

  /**
   * The extension block: the placeholder for an empty map; otherwise a
   * single closure holding every entry's registration in map order.
   */
  lemma ExtensionBlockSpec(exts: OMap<Key, Value>)
    ensures |exts| == 0 ==> ExtensionBlock(exts) == NoneBlock
    ensures forall i :: 0 <= i < |exts| ==>
      ExtensionBlock(exts) == ClosureOpen + ExtensionLines(exts[..i]) +
        ExtensionLine(exts[i].0, exts[i].1) + ExtensionLines(exts[i + 1..]) + ClosureClose
  {
    forall i | 0 <= i < |exts|
      ensures ExtensionBlock(exts) == ClosureOpen + ExtensionLines(exts[..i]) +
        ExtensionLine(exts[i].0, exts[i].1) + ExtensionLines(exts[i + 1..]) + ClosureClose
    {
      ConcatMapAt(exts, (e: (Key, Value)) => ExtensionLine(e.0, e.1), i);
      Surround(ClosureOpen, ExtensionLines(exts[..i]), ExtensionLine(exts[i].0, exts[i].1),
        ExtensionLines(exts[i + 1..]), ClosureClose);
    }
  }
}

=== FILE: environment.dfy ===
/**
 * Everything the plugin takes from outside its own logic: paths computed
 * by Composer and the operating system, filesystem tests, Composer's path
 * utilities, the git exit status, `var_export` of nested arrays and the
 * random class-name suffix. Writes are returned as values, never performed.
 */
module Environment {
  import opened Php
  import opened Packages

  /** One `file_put_contents` call. */
  datatype FileWrite = FileWrite(path: string, content: string)

  datatype Env = Env(
    /** `normalizePath(realpath('.'))`: the project directory. */
    basePath: string,
    /** `normalizePath(realpath(vendor-dir))`. */
    vendorDir: string,
    /** `InstallationManager::getInstallPath` for a non-root package. */
    installPathOf: Package -> string,
    /** `file_exists`. */
    fileExists: string -> bool,
    /** `is_dir`. */
    isDir: string -> bool,
    /** `Filesystem::normalizePath`. */
    normalizePath: string -> string,
    /** `dirname` and `basename`. */
    dirname: string -> string,
    basename: string -> string,
    /** `Filesystem::findShortestPath(from, to, directories)`. */
    shortestPath: (string, string, bool) -> string,
    /** Exit status of `git update-index --assume-unchanged` run in a package's install path for a declared file. */
    gitExitCode: (string, string) -> int,
    /** `var_export($array, true)` of the container parameters. */
    exportValue: Value -> string,
    /** `md5(uniqid('', true))`. */
    suffix: string)

  /** `getInstallPath`: the project directory for the root package, Composer's answer otherwise. */
  function InstallPath(env: Env, p: Package): string
  {
    if p.root then env.basePath else env.installPathOf(p)
  }
}

=== FILE: fake_autoload.dfy ===
/**
 * `generateFakeAutoloadFile`: for one path a package declares, either
 * skips (its directory is missing) or writes a PHP file that forwards to
 * Composer's real `autoload.php`, then optionally asks git to ignore it.
 */
module FakeAutoload {
  import opened Wrappers
  import opened Strings
  import opened Php
  import opened Packages
  import opened Environment
  import opened Bootstrap

  /** What one call does. */
  datatype Outcome =
    /** The target directory does not exist: a notice and nothing else. */
    | Skipped(notice: string)
    /** The file was written; `marked` says whether git was asked to treat it as unchanged. */
    | Written(file: FileWrite, notice: string, marked: bool)
    /** The file was written but git failed: the exception that ends the run. */
    | Failed(file: FileWrite, notice: string, error: string)

  /** `normalizePath(<installPath>/<dirname(target)>)`: the directory that must exist. */
  function TargetDir(env: Env, p: Package, target: string): string
  {
    env.normalizePath(InstallPath(env, p) + "/" + env.dirname(target))
  }

  /** The target as shown to the user: relative to the project directory. */
  function DisplayPath(env: Env, p: Package, target: string): string
  {
    env.shortestPath(env.basePath, TargetDir(env, p, target) + "/" + env.basename(target), false)
  }

  /** `<installPath>/.git`: git is consulted only when this directory exists. */
  function GitDir(env: Env, p: Package): string
  {
    InstallPath(env, p) + "/.git"
  }

  /**
   * The path appended to `__DIR__`: the relative path to the vendor
   * directory with trailing slashes dropped, between a leading slash and
   * `/autoload.php`.
   */
  function IncludePath(relative: string): (r: string)
    ensures |r| >= 14 && r[0] == '/' && r[|r| - 13..] == "/autoload.php"
    ensures |r| == 14 || r[|r| - 14] != '/'
    ensures forall i :: 1 <= i < |r| - 13 ==> i - 1 < |relative| && r[i] == relative[i - 1]
    ensures forall i :: |r| - 14 <= i < |relative| ==> relative[i] == '/'
  {
    "/" + RTrim(relative, '/') + "/autoload.php"
  }

  /** `n` slashes. */
  function Slashes(n: nat): (r: string)
    ensures |r| == n
    ensures forall i :: 0 <= i < n ==> r[i] == '/'
  {
    seq(n, _ => '/')
  }

  /** Trailing slashes are dropped and nothing else: a path that does not end in one is kept whole. */
  lemma {:induction false} RTrimSlashes(d: string, n: nat)
    requires |d| == 0 || d[|d| - 1] != '/'
    ensures RTrim(d + Slashes(n), '/') == d
  {
    if n > 0 {
      var s := d + Slashes(n);
      assert s[|s| - 1] == '/';
      assert s[..|s| - 1] == d + Slashes(n - 1);
      RTrimSlashes(d, n - 1);
    } else {
      assert d + Slashes(0) == d;
    }
  }

  /** However many slashes the relative path ends in, the include path has exactly one before `autoload.php`. */
  lemma IncludePathNormalises(d: string, n: nat)
    requires |d| == 0 || d[|d| - 1] != '/'
    ensures IncludePath(d + Slashes(n)) == "/" + d + "/autoload.php"
  {
    RTrimSlashes(d, n);
  }

  /** Everything in the forwarding file before the quoted include path. */
  const ForwardingPrefix: string := GeneratedHeader + ForwardingStatement

  /** What follows the header in a forwarding file. */
  const ForwardingStatement: string := "return include __DIR__ . "

  /** The forwarding file: `return include __DIR__ . <var_export(includePath)>;`. */
  function ForwardingContent(includePath: string): string
  {
    ForwardingPrefix + ExportString(includePath) + ";\n"
  }

  /**
   * How PHP reads the path back out of a forwarding file: the single-quoted
   * literal between the prefix and the closing `;`.
   */
  function IncludedPath(content: string): Option<string>
  {
    var n := |ForwardingPrefix|;
    if |content| >= n + 4 && content[..n + 1] == ForwardingPrefix + "'" && content[|content| - 3..] == "';\n"
    then Some(Unescape(content[n + 1..|content| - 3]))
    else None
  }

  /** A forwarding file includes exactly the path it was generated for, whatever characters that path holds. */
  lemma ForwardingRoundTrip(includePath: string)
    ensures IncludedPath(ForwardingContent(includePath)) == Some(includePath)
  {
    SliceQuoted(ForwardingPrefix, Escape(includePath));
    EscapeRoundTrip(includePath);
  }

  /** The pieces of `p'e';` followed by a newline, cut out again. */
  lemma SliceQuoted(p: string, e: string)
    ensures var c := p + ("'" + e + "'") + ";\n";
      && |c| >= |p| + 4
      && c[..|p| + 1] == p + "'"
      && c[|c| - 3..] == "';\n"
      && c[|p| + 1..|c| - 3] == e
  {
    var c := p + ("'" + e + "'") + ";\n";
    assert c == (p + "'") + e + "';\n";
  }

  /** A file the plugin generated is a forwarding file when its text goes on with `return include`. */
  predicate IsForwarding(content: string)
  {
    ForwardingPrefix <= content
  }

  /** The forwarding file starts with the generated header, the bootstrap file with the same header and a class. */
  lemma ForwardingIsNotBootstrap(includePath: string, suffix: string, parameters: string, configBlock: string, extensionBlock: string)
    ensures IsForwarding(ForwardingContent(includePath))
    ensures !IsForwarding(BootstrapContent(suffix, parameters, configBlock, extensionBlock))
  {
    var body := BootstrapClass(suffix, parameters, configBlock, extensionBlock);
    assert body[0] == 'c' && ForwardingStatement[0] == 'r';
    DivergeAfter(GeneratedHeader, ForwardingStatement, body);
  }

  /** Two texts that share a head but differ right after it: the first is no prefix of the second. */
  lemma DivergeAfter(h: string, a: string, b: string)
    requires |a| > 0 && |b| > 0 && a[0] != b[0]
    ensures !(h + a <= h + b)
  {
    assert (h + a)[|h|] == a[0];
    assert (h + b)[|h|] == b[0];
  }

  /** The notice for a target whose directory is missing (the message's spelling is kept). */
  const SkipNotice: string := "Skiping generation of fake autoload file: "

  /** The notice for a target that gets written. */
  const WriteNotice: string := "Generating fake autoload in: "

  /** The message of the exception thrown when git fails, around the displayed path. */
  const MarkFailedOpen: string := "Failed to mark "
  const MarkFailedClose: string := " as unchanged"

  /**
   * Git is asked to mark the written file as unchanged, and fails: the
   * target directory and `.git` exist and git exits with a non-zero status.
   */
  predicate MarkFails(env: Env, p: Package, target: string)
  {
    env.isDir(TargetDir(env, p, target)) && env.isDir(GitDir(env, p)) && env.gitExitCode(InstallPath(env, p), target) != 0
  }

  /**
   * `generateFakeAutoloadFile` as written: the existence check and the
   * displayed path use `<targetDir>/<basename>`, but the file goes to the
   * declared path itself, which PHP resolves against the working directory.
   */
  function FakeAutoloadFile(env: Env, p: Package, target: string): (o: Outcome)
    ensures o.Skipped? <==> !env.isDir(TargetDir(env, p, target))
    ensures o.Failed? <==> MarkFails(env, p, target)
    ensures o.Written? ==> o.marked == env.isDir(GitDir(env, p))
    ensures !o.Skipped? ==> o.file.path == target && IsForwarding(o.file.content)
    ensures !o.Skipped? ==>
      IncludedPath(o.file.content) == Some(IncludePath(env.shortestPath(TargetDir(env, p, target), env.vendorDir, true)))
  {
    var display := DisplayPath(env, p, target);
    var targetDir := TargetDir(env, p, target);
    if !env.isDir(targetDir) then Skipped(SkipNotice + display)
    else
      var includePath := IncludePath(env.shortestPath(targetDir, env.vendorDir, true));
      ForwardingRoundTrip(includePath);
      var file := FileWrite(target, ForwardingContent(includePath));
      var notice := WriteNotice + display;
      if !env.isDir(GitDir(env, p)) then Written(file, notice, false)
      else if env.gitExitCode(InstallPath(env, p), target) != 0
      then Failed(file, notice, MarkFailedOpen + display + MarkFailedClose)
      else Written(file, notice, true)
  }

  /**
   * Git is consulted only for an existing target directory in a package
   * with a `.git` directory: otherwise the outcome does not depend on what
   * git would answer.
   */
  lemma GitOnlyInRepository(env: Env, git: (string, string) -> int, p: Package, target: string)
    requires !env.isDir(TargetDir(env, p, target)) || !env.isDir(GitDir(env, p))
    ensures FakeAutoloadFile(env, p, target) == FakeAutoloadFile(env.(gitExitCode := git), p, target)
  {
  }

  /**
   * The write lands outside the directory that was checked: a dependency
   * at `/proj/vendor/acme/lib` declaring `vendor/autoload.php` has
   * `/proj/vendor/acme/lib/vendor` checked, while the forwarding file is
   * written to `vendor/autoload.php` below the working directory, where it
   * replaces the project's own autoloader.
   */
  lemma WriteIgnoresInstallPath(env: Env, p: Package)
    requires !p.root && env.installPathOf(p) == "/proj/vendor/acme/lib"
    requires env.dirname("vendor/autoload.php") == "vendor"
    requires forall s :: env.normalizePath(s) == s
    requires env.isDir("/proj/vendor/acme/lib/vendor")
    ensures TargetDir(env, p, "vendor/autoload.php") == "/proj/vendor/acme/lib/vendor"
    ensures FakeAutoloadFile(env, p, "vendor/autoload.php").file.path == "vendor/autoload.php"
  {
  }
}

=== FILE: ordered_map.dfy ===
/**
 * PHP arrays as ordered maps: a sequence of key/value entries in insertion
 * order. Writing an existing key replaces its value where it stands; writing
 * a new key appends it. `ksort` reorders the entries by key.
 */
module OrderedMap {
  import opened Wrappers
  import opened Sequences
  import opened Strings

  type OMap<K, V> = seq<(K, V)>

  /** The keys, in entry order. */
  function Keys<K, V>(m: OMap<K, V>): (ks: seq<K>)
    ensures |ks| == |m|
    ensures forall i :: 0 <= i < |m| ==> ks[i] == m[i].0
  {
    if |m| == 0 then [] else [m[0].0] + Keys(m[1..])
  }

  /** `$m[$k]` when `isset`, read from the first entry with that key. */
  function Get<K(==), V>(m: OMap<K, V>, k: K): Option<V>
  {
    if |m| == 0 then None
    else if m[0].0 == k then Some(m[0].1)
    else Get(m[1..], k)
  }

  /** A lookup finds something exactly for the keys present, and what it finds is an entry. */
  lemma {:induction false} GetSpec<K, V>(m: OMap<K, V>, k: K)
    ensures Get(m, k).None? <==> k !in Keys(m)
    ensures Get(m, k).Some? ==> (k, Get(m, k).value) in m
  {
    if |m| > 0 && m[0].0 != k {
      GetSpec(m[1..], k);
      assert Keys(m) == [m[0].0] + Keys(m[1..]);
    }
  }

  /** `$m[$k] = $v`, replacing the first entry with key `k` or appending one. */
  function Set<K(==), V>(m: OMap<K, V>, k: K, v: V): OMap<K, V>
  {
    if |m| == 0 then [(k, v)]
    else if m[0].0 == k then [(k, v)] + m[1..]
    else [m[0]] + Set(m[1..], k, v)
  }

  /**
   * What a write does: the key gets the new value, an existing key keeps
   * its position, a new key goes last, and every other key is untouched.
   */
  lemma {:induction false} SetSpec<K(!new), V>(m: OMap<K, V>, k: K, v: V)
    ensures Keys(Set(m, k, v)) == if k in Keys(m) then Keys(m) else Keys(m) + [k]
    ensures Get(Set(m, k, v), k) == Some(v)
    ensures forall k' :: k' != k ==> Get(Set(m, k, v), k') == Get(m, k')
  {
    if |m| > 0 && m[0].0 != k {
      SetSpec(m[1..], k, v);
      assert Keys(m) == [m[0].0] + Keys(m[1..]);
    }
  }

  /** A run of writes `$m[$k] = $v`, first to last. */
  function SetAll<K(==), V>(m: OMap<K, V>, kvs: seq<(K, V)>): OMap<K, V>
  {
    if |kvs| == 0 then m
    else
      var n := |kvs| - 1;
      Set(SetAll(m, kvs[..n]), kvs[n].0, kvs[n].1)
  }

  /** Two runs of writes are one run of their concatenation. */
  lemma {:induction false} SetAllAppend<K(!new), V>(m: OMap<K, V>, a: seq<(K, V)>, b: seq<(K, V)>)
    ensures SetAll(SetAll(m, a), b) == SetAll(m, a + b)
  {
    if |b| == 0 {
      assert a + b == a;
    } else {
      var n := |b| - 1;
      SetAllAppend(m, a, b[..n]);
      var ab := a + b;
      assert ab[..|ab| - 1] == a + b[..n];
      assert ab[|ab| - 1] == b[n];
    }
  }

  /** A key no write touches keeps its old value. */
  lemma {:induction false} SetAllUnwritten<K(!new), V>(m: OMap<K, V>, kvs: seq<(K, V)>, k: K)
    requires forall i :: 0 <= i < |kvs| ==> kvs[i].0 != k
    ensures Get(SetAll(m, kvs), k) == Get(m, k)
  {
    if |kvs| > 0 {
      var n := |kvs| - 1;
      assert kvs[n].0 != k;
      SetAllUnwritten(m, kvs[..n], k);
      SetSpec(SetAll(m, kvs[..n]), kvs[n].0, kvs[n].1);
    }
  }

  /** Last write wins: a key holds the value of the last write to it. */
  lemma {:induction false} SetAllLastWrite<K(!new), V>(m: OMap<K, V>, kvs: seq<(K, V)>, k: K, i: nat)
    requires i < |kvs| && kvs[i].0 == k
    requires forall j :: i < j < |kvs| ==> kvs[j].0 != k
    ensures Get(SetAll(m, kvs), k) == Some(kvs[i].1)
  {
    var n := |kvs| - 1;
    SetSpec(SetAll(m, kvs[..n]), kvs[n].0, kvs[n].1);
    if i < n {
      assert kvs[n].0 != k;
      assert kvs[..n][i] == kvs[i];
      SetAllLastWrite(m, kvs[..n], k, i);
    }
  }

  /**
   * Key order after a run of writes into an array with distinct keys: the
   * old keys, then each newly written key at its first write.
   */
  lemma {:induction false} SetAllKeys<K(!new), V>(m: OMap<K, V>, kvs: seq<(K, V)>)
    requires Distinct(Keys(m))
    ensures Keys(SetAll(m, kvs)) == Dedup(Keys(m) + Keys(kvs))
  {
    if |kvs| == 0 {
      DedupOfDistinct(Keys(m));
      assert Keys(m) + Keys(kvs) == Keys(m);
    } else {
      var n := |kvs| - 1;
      var k := kvs[n].0;
      var before := SetAll(m, kvs[..n]);
      var written := Keys(m) + Keys(kvs[..n]);
      SetAllKeys(m, kvs[..n]);
      SetSpec(before, k, kvs[n].1);
      KeysSnoc(kvs);
      assert Keys(m) + Keys(kvs) == written + [k];
      DedupLast(written, k);
    }
  }

  /** The keys of all entries but the last, then the last key. */
  lemma KeysSnoc<K, V>(kvs: seq<(K, V)>)
    requires |kvs| > 0
    ensures Keys(kvs) == Keys(kvs[..|kvs| - 1]) + [kvs[|kvs| - 1].0]
  {
    var n := |kvs| - 1;
    var whole := Keys(kvs);
    var front := Keys(kvs[..n]);
    var a := front + [kvs[n].0];
    assert |a| == |whole|;
    forall i | 0 <= i < |whole|
      ensures a[i] == whole[i]
    {
      if i < n {
        assert front[i] == kvs[..n][i].0;
      }
    }
    assert a == whole;
  }

  /** Keys are in `strcmp` order. */
  predicate SortedByKey<V>(m: OMap<string, V>)
  {
    forall i, j :: 0 <= i < j < |m| ==> LexLeq(m[i].0, m[j].0)
  }

  /** Places one entry into a key-sorted array, before the first key it does not exceed. */
  function Insert<V>(e: (string, V), m: OMap<string, V>): (r: OMap<string, V>)
    ensures multiset(r) == multiset(m) + multiset{e}
  {
    if |m| == 0 then [e]
    else if LexLeq(e.0, m[0].0) then [e] + m
    else
      assert m == [m[0]] + m[1..];
      [m[0]] + Insert(e, m[1..])
  }

  /** Inserting into a key-sorted array keeps it key-sorted. */
  lemma {:induction false} InsertSorted<V>(e: (string, V), m: OMap<string, V>)
    requires SortedByKey(m)
    ensures SortedByKey(Insert(e, m))
  {
    if |m| == 0 {
    } else if LexLeq(e.0, m[0].0) {
      SortedTail(m);
      forall j | 0 <= j < |m|
        ensures LexLeq(e.0, m[j].0)
      {
        if j > 0 {
          LexLeqTransitive(e.0, m[0].0, m[j].0);
        }
      }
      ConsSorted(e, m);
    } else {
      var t := Insert(e, m[1..]);
      SortedTail(m);
      InsertSorted(e, m[1..]);
      LexLeqTotal(e.0, m[0].0);
      forall j | 0 <= j < |t|
        ensures LexLeq(m[0].0, t[j].0)
      {
        var x := t[j];
        assert x in multiset(t);
        assert x in multiset(m[1..]) + multiset{e};
        if x != e {
          assert x in m[1..];
          var k :| 0 <= k < |m[1..]| && m[1..][k] == x;
          assert m[k + 1] == x;
        }
      }
      ConsSorted(m[0], t);
    }
  }

  /** Dropping the first entry keeps a key-sorted array sorted, and that entry's key is the least. */
  lemma SortedTail<V>(m: OMap<string, V>)
    requires SortedByKey(m) && |m| > 0
    ensures SortedByKey(m[1..])
    ensures forall i :: 1 <= i < |m| ==> LexLeq(m[0].0, m[i].0)
  {
    forall i, j | 0 <= i < j < |m[1..]|
      ensures LexLeq(m[1..][i].0, m[1..][j].0)
    {
      assert m[1..][i] == m[i + 1] && m[1..][j] == m[j + 1];
    }
  }

  /** An entry whose key does not exceed any key of a sorted array can go in front. */
  lemma ConsSorted<V>(x: (string, V), t: OMap<string, V>)
    requires SortedByKey(t)
    requires forall j :: 0 <= j < |t| ==> LexLeq(x.0, t[j].0)
    ensures SortedByKey([x] + t)
  {
    var r := [x] + t;
    forall i, j | 0 <= i < j < |r|
      ensures LexLeq(r[i].0, r[j].0)
    {
      assert r[j] == t[j - 1];
      if i > 0 {
        assert r[i] == t[i - 1];
      }
    }
  }

  /** Inserting a fresh key keeps keys distinct and lookups intact. */
  lemma {:induction false} InsertGet<V>(e: (string, V), m: OMap<string, V>)
    requires e.0 !in Keys(m) && Distinct(Keys(m))
    ensures Distinct(Keys(Insert(e, m)))
    ensures Get(Insert(e, m), e.0) == Some(e.1)
    ensures forall k :: k != e.0 ==> Get(Insert(e, m), k) == Get(m, k)
  {
    if |m| == 0 {
      assert Keys(Insert(e, m)) == [e.0];
    } else if LexLeq(e.0, m[0].0) {
      KeysCons(e, m);
      DistinctCons(e.0, Keys(m));
    } else {
      KeysCons(m[0], m[1..]);
      DistinctCons(m[0].0, Keys(m[1..]));
      InsertGet(e, m[1..]);
      InsertBehind(e, m[0], m[1..]);
    }
  }

  /** The keys of an entry put in front. */
  lemma KeysCons<V>(x: (string, V), t: OMap<string, V>)
    ensures Keys([x] + t) == [x.0] + Keys(t)
  {
    assert ([x] + t)[1..] == t;
  }

  /**
   * Putting an entry in front of an insertion result: with its key new to
   * both, keys stay distinct and lookups agree with the entry in front of
   * the original tail.
   */
  lemma InsertBehind<V>(e: (string, V), x: (string, V), t: OMap<string, V>)
    requires x.0 != e.0 && x.0 !in Keys(t)
    requires Distinct(Keys(Insert(e, t)))
    requires Get(Insert(e, t), e.0) == Some(e.1)
    requires forall k :: k != e.0 ==> Get(Insert(e, t), k) == Get(t, k)
    ensures Distinct(Keys([x] + Insert(e, t)))
    ensures Get([x] + Insert(e, t), e.0) == Some(e.1)
    ensures forall k :: k != e.0 ==> Get([x] + Insert(e, t), k) == Get([x] + t, k)
  {
    var r := Insert(e, t);
    GetSpec(r, x.0);
    GetSpec(t, x.0);
    KeysCons(x, r);
    DistinctCons(x.0, Keys(r));
    assert ([x] + r)[1..] == r;
    assert ([x] + t)[1..] == t;
  }

  /**
   * `ksort`: the same entries, reordered so that keys ascend.
   */
  function KSort<V>(m: OMap<string, V>): (r: OMap<string, V>)
    ensures SortedByKey(r)
    ensures multiset(r) == multiset(m)
  {
    if |m| == 0 then []
    else
      assert m == [m[0]] + m[1..];
      var t := KSort(m[1..]);
      InsertSorted(m[0], t);
      Insert(m[0], t)
  }

  /** Sorting an array with distinct keys keeps them distinct and every lookup unchanged. */
  lemma {:induction false} KSortGet<V>(m: OMap<string, V>)
    requires Distinct(Keys(m))
    ensures Distinct(Keys(KSort(m)))
    ensures forall k :: Get(KSort(m), k) == Get(m, k)
  {
    if |m| > 0 {
      assert Keys(m) == [m[0].0] + Keys(m[1..]);
      DistinctCons(m[0].0, Keys(m[1..]));
      KSortGet(m[1..]);
      var t := KSort(m[1..]);
      GetSpec(t, m[0].0);
      GetSpec(m[1..], m[0].0);
      InsertGet(m[0], t);
    }
  }
}

=== FILE: packages.dfy ===
/**
 * The packages the plugin walks: the root project followed by the locally
 * installed packages, alias entries resolved to the package they stand for,
 * each package once.
 */
module Packages {
  import opened Php
  import opened Sequences

  /**
   * A concrete package as the plugin reads it: its name ("vendor/project"
   * or a single segment), its `extra` block, and whether it is the root
   * project (`RootPackage`).
   */
  datatype Package = Package(name: string, extra: Value, root: bool)

  /** A repository entry: a concrete package, or an alias standing for another entry. */
  datatype Pkg = Concrete(pkg: Package) | Alias(of: Pkg)

  /** The concrete package at the end of an alias chain. */
  function Resolve(p: Pkg): Package
  {
    match p
    case Concrete(c) => c
    case Alias(q) => Resolve(q)
  }

  /** Every entry resolved. */
  function ResolveAll(ps: seq<Pkg>): (r: seq<Package>)
    ensures |r| == |ps|
    ensures forall i :: 0 <= i < |ps| ==> r[i] == Resolve(ps[i])
  {
    seq(|ps|, i requires 0 <= i < |ps| => Resolve(ps[i]))
  }

  /**
   * `getPackages`: puts the root entry in front of the installed ones,
   * unwraps every alias chain, and appends each resulting package unless an
   * equal one is already listed. A package's identity is reduced to its
   * name, `extra` block and root flag, so `in_array`'s loose comparison
   * becomes datatype equality; with one package per name and aliases
   * resolving to the same object, as Composer builds a repository, the two
   * agree.
   */
  method GetPackages(root: Pkg, installed: seq<Pkg>) returns (r: seq<Package>)
    ensures r == Dedup(ResolveAll([root] + installed))
    ensures |r| >= 1 && r[0] == Resolve(root)
    ensures Distinct(r)
    ensures forall x :: x in r <==> x in ResolveAll([root] + installed)
    ensures forall i, j :: 0 <= i < j < |r| ==>
      r[i] in ResolveAll([root] + installed) && r[j] in ResolveAll([root] + installed) &&
      IndexOf(ResolveAll([root] + installed), r[i]) < IndexOf(ResolveAll([root] + installed), r[j])
  {
    var all := [root] + installed;
    ghost var rs := ResolveAll(all);
    r := [];
    var i := 0;
    while i < |all|
      invariant 0 <= i <= |all|
      invariant r == Dedup(rs[..i])
    {
      var p := all[i];
      while p.Alias?
        invariant Resolve(p) == rs[i]
        decreases p
      {
        p := p.of;
      }
      var c := p.pkg;
      assert rs[..i + 1][..i] == rs[..i];
      if c !in r {
        r := r + [c];
      }
      i := i + 1;
    }
    assert rs[..|all|] == rs;
    DedupMembers(rs);
    DedupDistinct(rs);
    DedupFirstSeenOrder(rs);
    DedupHead(rs);
  }
}

=== FILE: path_translation.dfy ===
/**
 * `translateBootstrapPath`: rewrites quoted absolute paths under the
 * vendor directory into expressions relative to the generated file's
 * `$vendorDir` variable, by plain text replacement.
 */
module PathTranslation {
  import opened Strings

  /** What is searched for: a quote, the vendor directory, a slash. */
  function Needle(vendorDir: string): string
  {
    "'" + vendorDir + "/"
  }

  /** What each occurrence becomes. */
  const Replacement: string := "$vendorDir . '/"

  function TranslateBootstrapPath(s: string, vendorDir: string): string
  {
    ReplaceAll(s, Needle(vendorDir), Replacement)
  }

  /** The text is left as it is exactly when the quoted vendor prefix does not occur in it. */
  lemma TranslateUnchangedIff(s: string, vendorDir: string)
    ensures TranslateBootstrapPath(s, vendorDir) == s <==> !Occurs(s, Needle(vendorDir))
  {
    if Occurs(s, Needle(vendorDir)) {
      var i :| 0 <= i <= |s| && MatchAt(s, Needle(vendorDir), i);
      ReplaceAllChanges(s, Needle(vendorDir), Replacement, i);
    } else {
      ReplaceAllNoMatch(s, Needle(vendorDir), Replacement);
    }
  }

  /** Text without a quote is copied through untouched. */
  lemma {:induction false} TranslateSkipsUnquoted(a: string, b: string, vendorDir: string)
    requires '\'' !in a
    ensures TranslateBootstrapPath(a + b, vendorDir) == a + TranslateBootstrapPath(b, vendorDir)
  {
    if |a| > 0 {
      assert (a + b)[0] == a[0] != Needle(vendorDir)[0];
      assert (a + b)[1..] == a[1..] + b;
      assert '\'' !in a[1..];
      TranslateSkipsUnquoted(a[1..], b, vendorDir);
      assert a == [a[0]] + a[1..];
    } else {
      assert a + b == b;
    }
  }

  /** An occurrence becomes the replacement and the scan resumes after it. */
  lemma TranslateAtNeedle(b: string, vendorDir: string)
    ensures TranslateBootstrapPath(Needle(vendorDir) + b, vendorDir) ==
      Replacement + TranslateBootstrapPath(b, vendorDir)
  {
    var s := Needle(vendorDir) + b;
    assert s[|Needle(vendorDir)|..] == b;
  }

  /** A quote that does not start an occurrence is copied and the scan moves on. */
  lemma TranslateAtQuote(b: string, vendorDir: string)
    requires !(Needle(vendorDir) <= "'" + b)
    ensures TranslateBootstrapPath("'" + b, vendorDir) == "'" + TranslateBootstrapPath(b, vendorDir)
  {
    assert ("'" + b)[1..] == b;
  }

  /**
   * A quoted path below the vendor directory becomes a `$vendorDir`
   * expression with the rest of the path kept verbatim.
   */
  lemma TranslateQuotedVendorPath(vendorDir: string, rest: string)
    requires '\'' !in rest
    ensures TranslateBootstrapPath("'" + vendorDir + "/" + rest + "'", vendorDir) == Replacement + rest + "'"
  {
    assert "'" + vendorDir + "/" + rest + "'" == Needle(vendorDir) + (rest + "'");
    TranslateAtNeedle(rest + "'", vendorDir);
    TranslateSkipsUnquoted(rest, "'", vendorDir);
    assert !(Needle(vendorDir) <= "'");
    assert TranslateBootstrapPath("'", vendorDir) == "'";
  }

  /** The quoted vendor directory itself, with no slash after it, is not translated. */
  lemma TranslateQuotedVendorDir(vendorDir: string)
    requires '\'' !in vendorDir
    ensures TranslateBootstrapPath("'" + vendorDir + "'", vendorDir) == "'" + vendorDir + "'"
  {
    var s := "'" + vendorDir + "'";
    var n := Needle(vendorDir);
    forall i | 0 <= i <= |s|
      ensures !MatchAt(s, n, i)
    {
      if i == 0 {
        assert s[|vendorDir| + 1] == '\'' && n[|vendorDir| + 1] == '/';
      } else if i < |s| - 1 {
        assert s[i] == vendorDir[i - 1] && s[i] != n[0];
      }
    }
    ReplaceAllNoMatch(s, n, Replacement);
  }
}

=== FILE: php.dfy ===
/**
 * PHP values as the plugin reads them from a package's `extra` block (a
 * decoded `composer.json` object), and the few PHP conversions it applies:
 * `isset` on nested offsets, the `(array)` cast, string interpolation and
 * `var_export` of scalars.
 */
module Php {
  import opened Wrappers
  import opened OrderedMap

  /** An array key: PHP arrays are keyed by integers or strings. */
  datatype Key = IntKey(i: int) | StrKey(s: string)

  /** A PHP value; arrays keep their entries in insertion order. Floats are not modelled. */
  datatype Value =
    | Null
    | Bool(b: bool)
    | Int(i: int)
    | Str(s: string)
    | Arr(entries: OMap<Key, Value>)

  /**
   * `isset($v[$name])` together with the value found: only an array can be
   * indexed, the key must be present, and a null value counts as unset.
   */
  function Field(v: Value, name: string): (r: Option<Value>)
    ensures r.Some? <==> v.Arr? && Get(v.entries, StrKey(name)).Some? && Get(v.entries, StrKey(name)).value != Null
    ensures r.Some? ==> r.value != Null && (StrKey(name), r.value) in v.entries
  {
    if v.Arr? then
      GetSpec(v.entries, StrKey(name));
      var w := Get(v.entries, StrKey(name));
      if w.Some? && w.value != Null then w else None
    else None
  }

  /** `isset($v[$a][$b])`, with the value found. */
  function Field2(v: Value, a: string, b: string): Option<Value>
  {
    match Field(v, a)
    case Some(w) => Field(w, b)
    case None => None
  }

  /**
   * The `(array)` cast: an array is kept as it is, null becomes the empty
   * array and any scalar becomes a one-element array under key 0.
   */
  function ArrayCast(v: Value): (r: OMap<Key, Value>)
    ensures v.Arr? ==> r == v.entries
    ensures v.Null? ==> r == []
    ensures !v.Arr? && !v.Null? ==> r == [(IntKey(0), v)]
  {
    match v
    case Arr(es) => es
    case Null => []
    case _ => [(IntKey(0), v)]
  }

  /** Decimal digits of a natural number, most significant first. */
  function Digits(n: nat): (r: string)
    ensures |r| > 0
    ensures forall i :: 0 <= i < |r| ==> '0' <= r[i] <= '9'
  {
    if n < 10 then [(n + '0' as int) as char]
    else Digits(n / 10) + [((n % 10) + '0' as int) as char]
  }

  /** How PHP prints an integer. */
  function Decimal(i: int): string
  {
    if i < 0 then "-" + Digits(-i) else Digits(i)
  }

  /** The value of a numeral written by `Digits`. */
  function DigitsValue(s: string): int
  {
    if |s| == 0 then 0
    else 10 * DigitsValue(s[..|s| - 1]) + (s[|s| - 1] as int - '0' as int)
  }

  /** Reading the digits back gives the number. */
  lemma {:induction false} DigitsRoundTrip(n: nat)
    ensures DigitsValue(Digits(n)) == n
  {
    if n >= 10 {
      DigitsRoundTrip(n / 10);
      var d := Digits(n / 10) + [((n % 10) + '0' as int) as char];
      assert d[..|d| - 1] == Digits(n / 10);
    }
  }

  /** The value of a numeral written by `Decimal`: an optional minus sign, then digits. */
  function DecimalValue(s: string): int
  {
    if |s| > 0 && s[0] == '-' then -DigitsValue(s[1..]) else DigitsValue(s)
  }

  /** Reading the decimal form of any integer, negative ones included, gives the integer. */
  lemma DecimalRoundTrip(i: int)
    ensures DecimalValue(Decimal(i)) == i
  {
    if i < 0 {
      DigitsRoundTrip(-i);
      assert ("-" + Digits(-i))[1..] == Digits(-i);
    } else {
      DigitsRoundTrip(i);
    }
  }

  /**
   * String interpolation (`"new $className"`) and the implicit string
   * conversion of a path: booleans print as "1" or "", null as "", an
   * array as "Array".
   */
  function ToPhpString(v: Value): string
  {
    match v
    case Null => ""
    case Bool(b) => if b then "1" else ""
    case Int(i) => Decimal(i)
    case Str(s) => s
    case Arr(_) => "Array"
  }

  /** The body of a single-quoted literal: backslash and quote get a backslash in front. */
  function Escape(s: string): string
  {
    if |s| == 0 then ""
    else (if s[0] == '\'' || s[0] == '\\' then ['\\', s[0]] else [s[0]]) + Escape(s[1..])
  }

  /**
   * How PHP reads the body of a single-quoted literal: `\'` and `\\` stand
   * for one character, every other backslash is literal.
   */
  function Unescape(t: string): string
  {
    if |t| == 0 then ""
    else if |t| >= 2 && t[0] == '\\' && (t[1] == '\'' || t[1] == '\\') then [t[1]] + Unescape(t[2..])
    else [t[0]] + Unescape(t[1..])
  }

  /** A string literal written by `var_export` reads back as the string. */
  lemma {:induction false} EscapeRoundTrip(s: string)
    ensures Unescape(Escape(s)) == s
  {
    if |s| > 0 {
      EscapeRoundTrip(s[1..]);
      var e := Escape(s);
      if s[0] == '\'' || s[0] == '\\' {
        assert e == ['\\', s[0]] + Escape(s[1..]);
        assert e[2..] == Escape(s[1..]);
      } else {
        assert e == [s[0]] + Escape(s[1..]);
        assert e[1..] == Escape(s[1..]);
      }
      assert s == [s[0]] + s[1..];
    }
  }

  /** A string free of quotes and backslashes needs no escaping. */
  lemma {:induction false} EscapePlain(s: string)
    requires '\'' !in s && '\\' !in s
    ensures Escape(s) == s
  {
    if |s| > 0 {
      assert s[0] != '\'' && s[0] != '\\';
      assert '\'' !in s[1..] && '\\' !in s[1..];
      EscapePlain(s[1..]);
      assert s == [s[0]] + s[1..];
    }
  }

  /** `var_export($s, true)` for a string. */
  function ExportString(s: string): string
  {
    "'" + Escape(s) + "'"
  }

  /** `var_export($k, true)` for an array key. */
  function ExportKey(k: Key): string
  {
    match k
    case IntKey(i) => Decimal(i)
    case StrKey(s) => ExportString(s)
  }
}

=== FILE: plugin.dfy ===
/**
 * `onPostAutoloadDump`: collects the packages, walks them once to build
 * the parameters, config files and extensions while generating each
 * package's fake autoload files, sorts the parameters and writes the
 * bootstrap file. A git failure while marking a fake autoload file throws
 * out of the walk, so no bootstrap is written.
 */
module Plugin {
  import opened Wrappers
  import opened Sequences
  import opened OrderedMap
  import opened Packages
  import opened Environment
  import opened Aggregation
  import opened Bootstrap
  import opened FakeAutoload

  /** The fake autoload files of one package: what was written and reported, and the exception, if any. */
  datatype FakeRun = FakeRun(writes: seq<FileWrite>, notices: seq<string>, error: Option<string>)

  /** The outcome each declared path would have, in order. */
  function Outcomes(env: Env, p: Package, targets: seq<string>): (r: seq<Outcome>)
    ensures |r| == |targets|
    ensures forall i :: 0 <= i < |targets| ==> r[i] == FakeAutoloadFile(env, p, targets[i])
  {
    seq(|targets|, i requires 0 <= i < |targets| => FakeAutoloadFile(env, p, targets[i]))
  }

  /** Runs through the outcomes in order until one throws. */
  function Collect(os: seq<Outcome>): FakeRun
  {
    if |os| == 0 then FakeRun([], [], None)
    else
      match os[0]
      case Failed(file, notice, error) => FakeRun([file], [notice], Some(error))
      case Skipped(notice) =>
        var rest := Collect(os[1..]);
        rest.(notices := [notice] + rest.notices)
      case Written(file, notice, _) =>
        var rest := Collect(os[1..]);
        rest.(writes := [file] + rest.writes, notices := [notice] + rest.notices)
  }

  /** The inner `foreach($files as $path)`: one call per declared path, in order, until one throws. */
  function RunFakes(env: Env, p: Package, targets: seq<string>): FakeRun
  {
    Collect(Outcomes(env, p, targets))
  }

  /** Whether git fails to mark one of the package's declared fake autoload files. */
  predicate FakeFails(env: Env, p: Package)
  {
    exists t :: t in FakeTargets(p.extra) && MarkFails(env, p, t)
  }

  /** A package's fake autoload run throws exactly when git fails to mark one of its paths. */
  lemma RunFakesFails(env: Env, p: Package, targets: seq<string>)
    ensures RunFakes(env, p, targets).error.Some? <==> exists t :: t in targets && MarkFails(env, p, t)
  {
    var os := Outcomes(env, p, targets);
    CollectSpec(os);
    if exists t :: t in targets && MarkFails(env, p, t) {
      var t :| t in targets && MarkFails(env, p, t);
      var i :| 0 <= i < |targets| && targets[i] == t;
      assert os[i].Failed?;
    }
    if Collect(os).error.Some? {
      var i :| 0 <= i < |os| && os[i].Failed?;
      assert targets[i] in targets && MarkFails(env, p, targets[i]);
    }
  }

  /**
   * A run throws exactly when one outcome is a failure; it writes only
   * files the outcomes wrote, no more files than outcomes; without an exception
   * every outcome reports one notice.
   */
  lemma {:induction false} CollectSpec(os: seq<Outcome>)
    ensures var r := Collect(os);
      && (r.error.Some? <==> exists i :: 0 <= i < |os| && os[i].Failed?)
      && (forall k :: 0 <= k < |r.writes| ==> exists i :: 0 <= i < |os| && !os[i].Skipped? && r.writes[k] == os[i].file)
      && |r.writes| <= |os|
      && (r.error.None? ==> |r.notices| == |os|)
  {
    if |os| > 0 {
      CollectSpec(os[1..]);
      var r := Collect(os);
      var rest := Collect(os[1..]);
      assert forall i :: 1 <= i < |os| ==> os[i] == os[1..][i - 1];
      if !os[0].Failed? {
        if r.error.Some? {
          var i :| 0 <= i < |os[1..]| && os[1..][i].Failed?;
          assert os[i + 1].Failed?;
        }
        if os[0].Written? {
          forall k | 1 <= k < |r.writes|
            ensures exists i :: 0 <= i < |os| && !os[i].Skipped? && r.writes[k] == os[i].file
          {
            assert r.writes[k] == rest.writes[k - 1];
            var i :| 0 <= i < |os[1..]| && !os[1..][i].Skipped? && rest.writes[k - 1] == os[1..][i].file;
            assert os[i + 1] == os[1..][i];
          }
        } else {
          forall k | 0 <= k < |r.writes|
            ensures exists i :: 0 <= i < |os| && !os[i].Skipped? && r.writes[k] == os[i].file
          {
            var i :| 0 <= i < |os[1..]| && !os[1..][i].Skipped? && rest.writes[k] == os[1..][i].file;
            assert os[i + 1] == os[1..][i];
          }
        }
      }
    }
  }

  /**
   * The exception is the first failure's: every outcome before it was a
   * skip or a write, and the run stopped there.
   */
  lemma {:induction false} CollectStopsAtFirstFailure(os: seq<Outcome>)
    requires Collect(os).error.Some?
    ensures exists i ::
      && 0 <= i < |os| && os[i].Failed? && Collect(os).error == Some(os[i].error)
      && (forall j :: 0 <= j < i ==> !os[j].Failed?)
  {
    if !os[0].Failed? {
      CollectStopsAtFirstFailure(os[1..]);
      var i :| 0 <= i < |os[1..]| && os[1..][i].Failed? && Collect(os[1..]).error == Some(os[1..][i].error) &&
        (forall j :: 0 <= j < i ==> !os[1..][j].Failed?);
      assert forall j :: 1 <= j < i + 1 ==> os[j] == os[1..][j - 1];
      assert os[i + 1] == os[1..][i];
    }
  }

  /** Every file a package's fake autoload run writes is a forwarding file. */
  lemma RunFakesWritesForwarding(env: Env, p: Package, targets: seq<string>)
    ensures forall k :: 0 <= k < |RunFakes(env, p, targets).writes| ==> IsForwarding(RunFakes(env, p, targets).writes[k].content)
  {
    CollectSpec(Outcomes(env, p, targets));
  }

  /** The file an outcome writes: none for a skip. */
  function OutcomeFiles(o: Outcome): seq<FileWrite>
  {
    if o.Skipped? then [] else [o.file]
  }

  /** The notice an outcome reports. */
  function OutcomeNotices(o: Outcome): seq<string>
  {
    [o.notice]
  }

  /**
   * Without a failure the run writes the file of every outcome that is not
   * a skip and reports every notice, both in order.
   */
  lemma {:induction false} CollectWithoutFailure(os: seq<Outcome>)
    requires forall i :: 0 <= i < |os| ==> !os[i].Failed?
    ensures Collect(os) == FakeRun(ConcatMap(os, OutcomeFiles), ConcatMap(os, OutcomeNotices), None)
  {
    if |os| > 0 {
      assert forall i :: 0 <= i < |os| - 1 ==> os[1..][i] == os[i + 1];
      CollectWithoutFailure(os[1..]);
    }
  }

  /**
   * With a first failure at `i` the run writes the files of the outcomes up
   * to and including `i` that are not skips, reports their notices, and
   * throws the failure's exception.
   */
  lemma {:induction false} CollectUpToFailure(os: seq<Outcome>, i: nat)
    requires i < |os| && os[i].Failed? && forall j :: 0 <= j < i ==> !os[j].Failed?
    ensures Collect(os) == FakeRun(ConcatMap(os[..i + 1], OutcomeFiles), ConcatMap(os[..i + 1], OutcomeNotices), Some(os[i].error))
  {
    var front := os[..i + 1];
    assert front[0] == os[0];
    if i == 0 {
      assert front[1..] == [];
    } else {
      assert front[1..] == os[1..][..i];
      assert forall j :: 0 <= j < i - 1 ==> os[1..][j] == os[j + 1];
      CollectUpToFailure(os[1..], i - 1);
    }
  }

  /** The result of the package walk. */
  datatype Walked =
    | Completed(agg: Aggregate, writes: seq<FileWrite>, notices: seq<string>)
    | Aborted(writes: seq<FileWrite>, notices: seq<string>, error: string)

  /** One package's fake autoload run. */
  function FakeRunOf(env: Env): Package -> FakeRun
  {
    (p: Package) => RunFakes(env, p, FakeTargets(p.extra))
  }

  /** One package's step of the aggregation fold. */
  function StepOf(env: Env): (Aggregate, Package) -> Aggregate
  {
    (acc: Aggregate, p: Package) => AddPackage(acc, p, env)
  }

  /** The `foreach` over the packages, with the fake autoload files generated in each iteration. */
  function Walk(acc: Aggregate, ps: seq<Package>, env: Env): Walked
  {
    WalkWith(acc, ps, StepOf(env), FakeRunOf(env))
  }

  /**
   * The loop of `Walk` with the aggregation step and the per-package run
   * as parameters: each package's run first, stopping at the first
   * exception, then its aggregation step.
   */
  function WalkWith(acc: Aggregate, ps: seq<Package>, step: (Aggregate, Package) -> Aggregate, run: Package -> FakeRun): Walked
    decreases |ps|
  {
    if |ps| == 0 then Completed(acc, [], [])
    else
      var f := run(ps[0]);
      if f.error.Some? then Aborted(f.writes, f.notices, f.error.value)
      else
        match WalkWith(step(acc, ps[0]), ps[1..], step, run)
        case Completed(agg, writes, notices) => Completed(agg, f.writes + writes, f.notices + notices)
        case Aborted(writes, notices, error) => Aborted(f.writes + writes, f.notices + notices, error)
  }

  /** A walk that completes builds exactly what the aggregation fold alone builds. */
  lemma {:induction false} WalkAggregates(acc: Aggregate, ps: seq<Package>, env: Env)
    ensures Walk(acc, ps, env).Completed? ==> Walk(acc, ps, env).agg == AggregateFrom(acc, ps, env)
    decreases |ps|
  {
    if |ps| > 0 {
      WalkAggregates(AddPackage(acc, ps[0], env), ps[1..], env);
    }
  }

  /** The walk aborts exactly when some package's fake autoload files throw. */
  lemma {:induction false} WalkAbortsIff(acc: Aggregate, ps: seq<Package>, env: Env)
    ensures Walk(acc, ps, env).Aborted? <==> exists i :: 0 <= i < |ps| && FakeFails(env, ps[i])
    decreases |ps|
  {
    if |ps| > 0 {
      RunFakesFails(env, ps[0], FakeTargets(ps[0].extra));
      if !FakeFails(env, ps[0]) {
        WalkAbortsIff(AddPackage(acc, ps[0], env), ps[1..], env);
        SomeInTail(ps, q => FakeFails(env, q));
      }
    }
  }

  /** Every file the walk writes is a forwarding file. */
  lemma {:induction false} WalkWritesForwarding(acc: Aggregate, ps: seq<Package>, env: Env)
    ensures forall k :: 0 <= k < |Walk(acc, ps, env).writes| ==> IsForwarding(Walk(acc, ps, env).writes[k].content)
    decreases |ps|
  {
    if |ps| > 0 {
      var f := RunFakes(env, ps[0], FakeTargets(ps[0].extra));
      RunFakesWritesForwarding(env, ps[0], FakeTargets(ps[0].extra));
      assert FakeRunOf(env)(ps[0]) == f;
      if f.error.None? {
        var rest := Walk(AddPackage(acc, ps[0], env), ps[1..], env);
        WalkWritesForwarding(AddPackage(acc, ps[0], env), ps[1..], env);
        assert StepOf(env)(acc, ps[0]) == AddPackage(acc, ps[0], env);
        WalkWithStep(acc, ps, StepOf(env), FakeRunOf(env));
        assert Walk(acc, ps, env).writes == f.writes + rest.writes;
      }
    }
  }

  /** Past a run that does not throw, the loop continues with that run's writes and notices in front. */
  lemma WalkWithStep(acc: Aggregate, ps: seq<Package>, step: (Aggregate, Package) -> Aggregate, run: Package -> FakeRun)
    requires |ps| > 0 && run(ps[0]).error.None?
    ensures var rest := WalkWith(step(acc, ps[0]), ps[1..], step, run);
      WalkWith(acc, ps, step, run) == rest.(writes := run(ps[0]).writes + rest.writes, notices := run(ps[0]).notices + rest.notices)
  {
  }

  /** The files a package's run writes. */
  function RunWrites(run: Package -> FakeRun): Package -> seq<FileWrite>
  {
    (p: Package) => run(p).writes
  }

  /** The notices a package's run reports. */
  function RunNotices(run: Package -> FakeRun): Package -> seq<string>
  {
    (p: Package) => run(p).notices
  }

  /** The files one package's fake autoload run writes. */
  function FakeWrites(env: Env): Package -> seq<FileWrite>
  {
    RunWrites(FakeRunOf(env))
  }

  /** The notices one package's fake autoload run reports. */
  function FakeNotices(env: Env): Package -> seq<string>
  {
    RunNotices(FakeRunOf(env))
  }

  /**
   * When no package's fake autoload files throw, the walk completes with
   * the fold's aggregates and the packages' writes and notices concatenated
   * in package order.
   */
  lemma {:induction false} WalkCompletes(acc: Aggregate, ps: seq<Package>, env: Env)
    requires forall i :: 0 <= i < |ps| ==> !FakeFails(env, ps[i])
    ensures Walk(acc, ps, env) == Completed(AggregateFrom(acc, ps, env), ConcatMap(ps, FakeWrites(env)), ConcatMap(ps, FakeNotices(env)))
    decreases |ps|
  {
    if |ps| > 0 {
      RunFakesFails(env, ps[0], FakeTargets(ps[0].extra));
      assert forall i :: 0 <= i < |ps| - 1 ==> ps[1..][i] == ps[i + 1];
      WalkCompletes(AddPackage(acc, ps[0], env), ps[1..], env);
    }
  }

  /**
   * When package `i` is the first whose fake autoload files throw, the walk
   * aborts with that exception after the writes and notices of the packages
   * up to and including `i`, in package order.
   */
  lemma WalkAbortsAt(acc: Aggregate, ps: seq<Package>, env: Env, i: nat)
    requires i < |ps| && FakeFails(env, ps[i]) && forall j :: 0 <= j < i ==> !FakeFails(env, ps[j])
    ensures RunFakes(env, ps[i], FakeTargets(ps[i].extra)).error.Some?
    ensures Walk(acc, ps, env) == Aborted(ConcatMap(ps[..i + 1], FakeWrites(env)), ConcatMap(ps[..i + 1], FakeNotices(env)),
      RunFakes(env, ps[i], FakeTargets(ps[i].extra)).error.value)
  {
    forall j | 0 <= j <= i
      ensures FakeRunOf(env)(ps[j]).error.Some? <==> FakeFails(env, ps[j])
    {
      RunFakesFails(env, ps[j], FakeTargets(ps[j].extra));
    }
    WalkWithThrowsAt(acc, ps, StepOf(env), FakeRunOf(env), i);
  }

  /** The loop stops at the first run that throws, after the writes and notices of the runs up to it. */
  lemma {:induction false} WalkWithThrowsAt(acc: Aggregate, ps: seq<Package>, step: (Aggregate, Package) -> Aggregate,
                                            run: Package -> FakeRun, i: nat)
    requires i < |ps| && run(ps[i]).error.Some? && forall j :: 0 <= j < i ==> run(ps[j]).error.None?
    ensures WalkWith(acc, ps, step, run) ==
      Aborted(ConcatMap(ps[..i + 1], RunWrites(run)), ConcatMap(ps[..i + 1], RunNotices(run)), run(ps[i]).error.value)
    decreases |ps|
  {
    ConcatMapPrefix(ps, RunWrites(run), i);
    ConcatMapPrefix(ps, RunNotices(run), i);
    if i == 0 {
      assert ps[1..][..0] == [];
    } else {
      assert ps[1..][i - 1] == ps[i];
      assert forall j :: 0 <= j < i - 1 ==> ps[1..][j] == ps[j + 1];
      WalkWithThrowsAt(step(acc, ps[0]), ps[1..], step, run, i - 1);
    }
  }

  /** What a run of the plugin leaves behind. */
  datatype Dump =
    | Generated(writes: seq<FileWrite>, notices: seq<string>)
    | Thrown(writes: seq<FileWrite>, notices: seq<string>, error: string)

  /** The bootstrap file for the walk's aggregates, with the top-level parameter keys sorted. */
  function BootstrapOf(ps: seq<Package>, env: Env): FileWrite
  {
    var agg := AggregateFrom(Empty, ps, env);
    GenerateBootstrap(KSort(agg.params), agg.configFiles, agg.extensions, env)
  }

  /** The notice printed after the bootstrap file is written. */
  function BootstrapNotice(env: Env): string
  {
    "Generating " + env.shortestPath(env.basePath, BootstrapPath(env.vendorDir), false)
  }

  /** Everything `onPostAutoloadDump` does after collecting the packages. */
  function DumpOf(ps: seq<Package>, env: Env): Dump
  {
    match Walk(Empty, ps, env)
    case Aborted(writes, notices, error) => Thrown(writes, notices, error)
    case Completed(agg, writes, notices) =>
      Generated(
        writes + [GenerateBootstrap(KSort(agg.params), agg.configFiles, agg.extensions, env)],
        notices + [BootstrapNotice(env)])
  }

  /**
   * After collecting the packages: the bootstrap file is written, last,
   * exactly when no package's fake autoload files throw; every other write
   * is a forwarding file.
   */
  lemma DumpOfSpec(ps: seq<Package>, env: Env)
    ensures DumpOf(ps, env).Generated? <==> forall i :: 0 <= i < |ps| ==> !FakeFails(env, ps[i])
    ensures DumpOf(ps, env).Generated? ==>
      var w := DumpOf(ps, env).writes;
      |w| >= 1 && w[|w| - 1] == BootstrapOf(ps, env) && forall k :: 0 <= k < |w| - 1 ==> IsForwarding(w[k].content)
    ensures DumpOf(ps, env).Thrown? ==>
      forall k :: 0 <= k < |DumpOf(ps, env).writes| ==> IsForwarding(DumpOf(ps, env).writes[k].content)
    ensures DumpOf(ps, env).Generated? ==> DumpOf(ps, env).writes == ConcatMap(ps, FakeWrites(env)) + [BootstrapOf(ps, env)]
  {
    WalkAggregates(Empty, ps, env);
    WalkAbortsIff(Empty, ps, env);
    WalkWritesForwarding(Empty, ps, env);
    if DumpOf(ps, env).Generated? {
      WalkCompletes(Empty, ps, env);
    }
  }

  /**
   * `onPostAutoloadDump`. The bootstrap file is written, last, exactly when
   * no fake autoload file throws, and it holds the walk's aggregates with
   * the top-level parameter keys sorted; every other write is a forwarding
   * file, so a run that throws leaves no bootstrap behind.
   */
  method OnPostAutoloadDump(root: Pkg, installed: seq<Pkg>, env: Env) returns (d: Dump)
    ensures var ps := Dedup(ResolveAll([root] + installed));
      d.Generated? <==> forall i :: 0 <= i < |ps| ==> !FakeFails(env, ps[i])
    ensures d.Generated? ==>
      |d.writes| >= 1 && d.writes[|d.writes| - 1] == BootstrapOf(Dedup(ResolveAll([root] + installed)), env)
    ensures d.Generated? ==> forall k :: 0 <= k < |d.writes| - 1 ==> IsForwarding(d.writes[k].content)
    ensures d.Thrown? ==> forall k :: 0 <= k < |d.writes| ==> IsForwarding(d.writes[k].content)
    ensures var ps := Dedup(ResolveAll([root] + installed));
      d.Generated? ==> d.writes == ConcatMap(ps, FakeWrites(env)) + [BootstrapOf(ps, env)]
  {
    var ps := GetPackages(root, installed);
    d := DumpOf(ps, env);
    DumpOfSpec(ps, env);
  }
}

=== FILE: sequences.dfy ===
/**
 * Generic facts about sequences used by the package walk and by PHP's
 * ordered arrays: distinctness, first-occurrence index and the
 * "keep the first occurrence" de-duplication.
 */
module Sequences {

  /** No element occurs twice. */
  predicate Distinct<T(==)>(s: seq<T>) {
    forall i, j :: 0 <= i < j < |s| ==> s[i] != s[j]
  }

  /** Index of the first occurrence of `x` in `s`. */
  function IndexOf<T(==)>(s: seq<T>, x: T): (i: nat)
    requires x in s
    ensures i < |s| && s[i] == x && x !in s[..i]
  {
    if s[0] == x then 0 else 1 + IndexOf(s[1..], x)
  }

  /**
   * Keeps the first occurrence of every element, in order: the loop
   * "append unless already present" read as a function of the input prefix.
   */
  function Dedup<T(==)>(s: seq<T>): seq<T>
  {
    if |s| == 0 then []
    else
      var d := Dedup(s[..|s| - 1]);
      if s[|s| - 1] in d then d else d + [s[|s| - 1]]
  }

  /** `Dedup` keeps exactly the elements of its input. */
  lemma {:induction false} DedupMembers<T>(s: seq<T>)
    ensures forall x :: x in Dedup(s) <==> x in s
  {
    if |s| > 0 {
      DedupMembers(s[..|s| - 1]);
      assert s == s[..|s| - 1] + [s[|s| - 1]];
    }
  }

  /** `Dedup` never lists an element twice. */
  lemma {:induction false} DedupDistinct<T>(s: seq<T>)
    ensures Distinct(Dedup(s))
  {
    if |s| > 0 {
      DedupDistinct(s[..|s| - 1]);
    }
  }

  /** `Dedup` lists elements in the order of their first occurrence in the input. */
  lemma {:induction false} DedupFirstSeenOrder<T>(s: seq<T>)
    ensures forall x :: x in Dedup(s) ==> x in s
    ensures forall i, j :: 0 <= i < j < |Dedup(s)| ==>
      IndexOf(s, Dedup(s)[i]) < IndexOf(s, Dedup(s)[j])
  {
    DedupMembers(s);
    if |s| > 0 {
      var p := s[..|s| - 1];
      var d := Dedup(p);
      DedupFirstSeenOrder(p);
      DedupMembers(p);
      assert s == p + [s[|s| - 1]];
      forall x | x in p
        ensures IndexOf(s, x) == IndexOf(p, x)
      {
        IndexOfPrefix(p, [s[|s| - 1]], x);
      }
      if s[|s| - 1] !in d {
        var x := s[|s| - 1];
        assert x !in p;
        IndexOfAfterPrefix(p, x);
      }
    }
  }

  /** The first index of an element of `a` is the same in `a + b`. */
  lemma {:induction false} IndexOfPrefix<T>(a: seq<T>, b: seq<T>, x: T)
    requires x in a
    ensures x in a + b && IndexOf(a + b, x) == IndexOf(a, x)
  {
    if a[0] != x {
      assert (a + b)[1..] == a[1..] + b;
      IndexOfPrefix(a[1..], b, x);
    }
  }

  /** An element missing from `a` is first found in `a + [x]` at `|a|`. */
  lemma {:induction false} IndexOfAfterPrefix<T>(a: seq<T>, x: T)
    requires x !in a
    ensures x in a + [x] && IndexOf(a + [x], x) == |a|
  {
    var i := IndexOf(a + [x], x);
    assert (a + [x])[i] == x;
  }

  /** A sequence without repeats is its own de-duplication. */
  lemma {:induction false} DedupOfDistinct<T>(s: seq<T>)
    requires Distinct(s)
    ensures Dedup(s) == s
  {
    if |s| > 0 {
      DedupOfDistinct(s[..|s| - 1]);
    }
  }

  /** A sequence with a head is repeat-free when its tail is and the head is new. */
  lemma DistinctCons<T>(x: T, s: seq<T>)
    ensures Distinct([x] + s) <==> x !in s && Distinct(s)
  {
    if x !in s && Distinct(s) {
      forall i, j | 0 <= i < j < |[x] + s|
        ensures ([x] + s)[i] != ([x] + s)[j]
      {
        if i == 0 {
          assert ([x] + s)[j] == s[j - 1];
        }
      }
    }
    if Distinct([x] + s) {
      forall i, j | 0 <= i < j < |s|
        ensures s[i] != s[j]
      {
        assert s[i] == ([x] + s)[i + 1] && s[j] == ([x] + s)[j + 1];
      }
    }
    if x in s {
      var j :| 0 <= j < |s| && s[j] == x;
      assert ([x] + s)[0] == ([x] + s)[j + 1];
    }
  }

  /** The first element always survives de-duplication, in front. */
  lemma {:induction false} DedupHead<T>(s: seq<T>)
    requires |s| > 0
    ensures |Dedup(s)| > 0 && Dedup(s)[0] == s[0]
  {
    if |s| > 1 {
      DedupHead(s[..|s| - 1]);
    }
  }

  /** The elements that pass `keep`, in order. */
  function Filter<T>(s: seq<T>, keep: T -> bool): seq<T>
  {
    if |s| == 0 then [] else (if keep(s[0]) then [s[0]] else []) + Filter(s[1..], keep)
  }

  /** Filtering keeps exactly the elements that pass, and never lengthens. */
  lemma {:induction false} FilterMembers<T>(s: seq<T>, keep: T -> bool)
    ensures |Filter(s, keep)| <= |s|
    ensures forall x :: x in Filter(s, keep) <==> x in s && keep(x)
  {
    if |s| > 0 {
      FilterMembers(s[1..], keep);
      assert s == [s[0]] + s[1..];
    }
  }

  /** Filtering a concatenation filters each part. */
  lemma {:induction false} FilterAppend<T>(a: seq<T>, b: seq<T>, keep: T -> bool)
    ensures Filter(a + b, keep) == Filter(a, keep) + Filter(b, keep)
  {
    if |a| == 0 {
      assert a + b == b;
    } else {
      var head := if keep(a[0]) then [a[0]] else [];
      assert (a + b)[0] == a[0];
      assert (a + b)[1..] == a[1..] + b;
      assert Filter(a + b, keep) == head + Filter(a[1..] + b, keep);
      FilterAppend(a[1..], b, keep);
      assert head + (Filter(a[1..], keep) + Filter(b, keep)) == (head + Filter(a[1..], keep)) + Filter(b, keep);
    }
  }

  /** When the head fails `p`, some element satisfies `p` exactly when some element of the tail does. */
  lemma SomeInTail<T>(s: seq<T>, p: T -> bool)
    requires |s| > 0 && !p(s[0])
    ensures (exists i :: 0 <= i < |s| && p(s[i])) <==> (exists i :: 0 <= i < |s| - 1 && p(s[1..][i]))
  {
    if exists i :: 0 <= i < |s| && p(s[i]) {
      var i :| 0 <= i < |s| && p(s[i]);
      assert p(s[1..][i - 1]);
    }
    if exists i :: 0 <= i < |s| - 1 && p(s[1..][i]) {
      var i :| 0 <= i < |s| - 1 && p(s[1..][i]);
      assert p(s[i + 1]);
    }
  }

  /** De-duplicating after a de-duplicated prefix is de-duplicating the whole. */
  lemma {:induction false} DedupOfDedupPrefix<T>(a: seq<T>, b: seq<T>)
    ensures Dedup(Dedup(a) + b) == Dedup(a + b)
  {
    if |b| == 0 {
      DedupDistinct(a);
      DedupOfDistinct(Dedup(a));
      assert Dedup(a) + b == Dedup(a);
      assert a + b == a;
    } else {
      var n := |b| - 1;
      DedupOfDedupPrefix(a, b[..n]);
      assert (Dedup(a) + b)[..|Dedup(a) + b| - 1] == Dedup(a) + b[..n];
      assert (a + b)[..|a + b| - 1] == a + b[..n];
    }
  }

  /**
   * Appending `x` to a repeat-free prefix "unless already present" and then
   * de-duplicating the rest is de-duplicating the whole.
   */
  lemma DedupStep<T>(k: seq<T>, x: T, rest: seq<T>)
    requires Distinct(k)
    ensures Dedup((if x in k then k else k + [x]) + rest) == Dedup(k + ([x] + rest))
  {
    var kx := if x in k then k else k + [x];
    DedupSnoc(k, x);
    assert kx == Dedup(k + [x]);
    DedupOfDedupPrefix(k + [x], rest);
    assert Dedup(kx + rest) == Dedup((k + [x]) + rest);
    assert (k + [x]) + rest == k + ([x] + rest);
  }

  /** `Dedup` of a sequence with one more element at the end. */
  lemma DedupLast<T>(s: seq<T>, x: T)
    ensures Dedup(s + [x]) == if x in Dedup(s) then Dedup(s) else Dedup(s) + [x]
  {
    assert (s + [x])[..|s|] == s;
  }

  /** Appending to a repeat-free sequence: an element already present is dropped. */
  lemma DedupSnoc<T>(k: seq<T>, x: T)
    requires Distinct(k)
    ensures Dedup(k + [x]) == if x in k then k else k + [x]
  {
    DedupOfDistinct(k);
    assert (k + [x])[..|k + [x]| - 1] == k;
  }

  /** Appending a new element keeps a sequence repeat-free. */
  lemma DistinctSnoc<T>(s: seq<T>, x: T)
    requires Distinct(s) && x !in s
    ensures Distinct(s + [x])
  {
  }
  /** The concatenation of `f` applied to each element, in order. */
  function ConcatMap<T, U>(s: seq<T>, f: T -> seq<U>): seq<U>
  {
    if |s| == 0 then [] else f(s[0]) + ConcatMap(s[1..], f)
  }

  /** Element `i`'s piece sits between the pieces of the elements before it and after it. */
  lemma {:induction false} ConcatMapAt<T, U>(s: seq<T>, f: T -> seq<U>, i: nat)
    requires i < |s|
    ensures ConcatMap(s, f) == ConcatMap(s[..i], f) + f(s[i]) + ConcatMap(s[i + 1..], f)
  {
    if i == 0 {
      assert s[..0] == [];
      assert s[1..] == s[i + 1..];
    } else {
      ConcatMapAt(s[1..], f, i - 1);
      assert s[1..][..i - 1] == s[..i][1..];
      assert s[1..][i - 1] == s[i];
      assert s[1..][i..] == s[i + 1..];
    }
  }

  /** Mapping a prefix of length `i + 1` takes the head, then a prefix of length `i` of the tail. */
  lemma ConcatMapPrefix<T, U>(s: seq<T>, f: T -> seq<U>, i: nat)
    requires i < |s|
    ensures ConcatMap(s[..i + 1], f) == f(s[0]) + ConcatMap(s[1..][..i], f)
  {
    assert s[..i + 1][0] == s[0];
    assert s[..i + 1][1..] == s[1..][..i];
  }

}

=== FILE: strings.dfy ===
/**
 * The PHP string primitives the plugin relies on, over `seq<char>`:
 * single-needle `str_replace`, `explode`/`implode` on one separator
 * character, `rtrim` with one character, and the byte order `strcmp`
 * (and so `ksort`) uses on non-numeric string keys.
 */
module Strings {

  /** `pat` occurs in `s` at index `i`. */
  predicate MatchAt(s: string, pat: string, i: nat)
    requires i <= |s|
  {
    pat <= s[i..]
  }

  /** `pat` occurs somewhere in `s`. */
  predicate Occurs(s: string, pat: string) {
    exists i :: 0 <= i <= |s| && MatchAt(s, pat, i)
  }

  /**
   * `str_replace(pat, rep, s)`: scans left to right and replaces each
   * non-overlapping occurrence of `pat`; an empty needle leaves `s` as is.
   */
  function ReplaceAll(s: string, pat: string, rep: string): string
    decreases |s|
  {
    if |pat| == 0 || |s| == 0 then s
    else if pat <= s then rep + ReplaceAll(s[|pat|..], pat, rep)
    else [s[0]] + ReplaceAll(s[1..], pat, rep)
  }

  /** A string in which the needle never occurs is returned unchanged. */
  lemma {:induction false} ReplaceAllNoMatch(s: string, pat: string, rep: string)
    requires !Occurs(s, pat)
    ensures ReplaceAll(s, pat, rep) == s
  {
    if |pat| > 0 && |s| > 0 {
      assert !MatchAt(s, pat, 0);
      assert !Occurs(s[1..], pat) by {
        forall i | 0 <= i <= |s[1..]|
          ensures !MatchAt(s[1..], pat, i)
        {
          assert s[1..][i..] == s[i + 1..];
          assert !MatchAt(s, pat, i + 1);
        }
      }
      ReplaceAllNoMatch(s[1..], pat, rep);
    }
  }

  /**
   * Conversely, when the replacement starts with a different character than
   * the needle, any occurrence makes the result differ from the input.
   */
  lemma {:induction false} ReplaceAllChanges(s: string, pat: string, rep: string, i: nat)
    requires |pat| > 0 && |rep| > 0 && rep[0] != pat[0]
    requires i <= |s| && MatchAt(s, pat, i)
    ensures ReplaceAll(s, pat, rep) != s
  {
    if pat <= s {
      assert ReplaceAll(s, pat, rep)[0] == rep[0];
    } else {
      assert i > 0 && |s| > 0;
      assert s[1..][i - 1..] == s[i..];
      ReplaceAllChanges(s[1..], pat, rep, i - 1);
      assert ReplaceAll(s, pat, rep) == [s[0]] + ReplaceAll(s[1..], pat, rep);
      assert s == [s[0]] + s[1..];
    }
  }

  /** No occurrence of `pat` in `a + b` starts inside `a` and ends inside `b`. */
  predicate NoStraddle(a: string, b: string, pat: string) {
    forall i :: 0 <= i < |a| && |a| < i + |pat| ==> !MatchAt(a + b, pat, i)
  }

  /**
   * Replacing is compositional across a boundary that no occurrence
   * crosses: the left-to-right scan of `a + b` treats `a` exactly as the scan
   * of `a` alone does.
   */
  lemma {:induction false} ReplaceAllConcat(a: string, b: string, pat: string, rep: string)
    requires |pat| > 0
    requires NoStraddle(a, b, pat)
    ensures ReplaceAll(a + b, pat, rep) == ReplaceAll(a, pat, rep) + ReplaceAll(b, pat, rep)
  {
    if |a| == 0 {
      assert a + b == b;
    } else if pat <= a + b {
      if |pat| > |a| {
        assert MatchAt(a + b, pat, 0);
        assert false;
      }
      assert pat <= a by {
        assert a[..|pat|] == (a + b)[..|pat|];
      }
      var a' := a[|pat|..];
      assert (a + b)[|pat|..] == a' + b;
      assert NoStraddle(a', b, pat) by {
        forall i | 0 <= i < |a'| && |a'| < i + |pat|
          ensures !MatchAt(a' + b, pat, i)
        {
          assert (a' + b)[i..] == (a + b)[i + |pat|..];
          assert !MatchAt(a + b, pat, i + |pat|);
        }
      }
      ReplaceAllConcat(a', b, pat, rep);
    } else {
      var a' := a[1..];
      assert (a + b)[1..] == a' + b;
      assert NoStraddle(a', b, pat) by {
        forall i | 0 <= i < |a'| && |a'| < i + |pat|
          ensures !MatchAt(a' + b, pat, i)
        {
          assert (a' + b)[i..] == (a + b)[i + 1..];
          assert !MatchAt(a + b, pat, i + 1);
        }
      }
      ReplaceAllConcat(a', b, pat, rep);
    }
  }

  /**
   * `explode(sep, s)` for a one-character separator: the pieces between
   * separators, always at least one (`explode('/', '')` is `['']`).
   */
  function Split(s: string, sep: char): (r: seq<string>)
    ensures |r| >= 1
    ensures forall i :: 0 <= i < |r| ==> sep !in r[i]
    ensures |r| == multiset(s)[sep] + 1
    decreases |s|
  {
    if |s| == 0 then [""]
    else
      var rest := Split(s[1..], sep);
      assert s == [s[0]] + s[1..];
      if s[0] == sep then [""] + rest
      else [[s[0]] + rest[0]] + rest[1..]
  }

  /** `implode(sep, parts)`. */
  function Join(parts: seq<string>, sep: char): string
  {
    if |parts| == 0 then ""
    else if |parts| == 1 then parts[0]
    else parts[0] + [sep] + Join(parts[1..], sep)
  }

  /** Joining the pieces of `explode` back with the separator restores the string. */
  lemma {:induction false} JoinSplit(s: string, sep: char)
    ensures Join(Split(s, sep), sep) == s
  {
    if |s| > 0 {
      var rest := Split(s[1..], sep);
      JoinSplit(s[1..], sep);
      SplitCons(s, sep);
      if s[0] != sep {
        JoinGrowFirst(s[0], rest, sep);
      } else {
        JoinOpenPiece(rest, sep);
      }
      assert [s[0]] + s[1..] == s;
    }
  }

  /** One step of `explode`: a leading separator opens a new piece, any other character joins the first. */
  lemma SplitCons(s: string, sep: char)
    requires |s| > 0
    ensures var rest := Split(s[1..], sep);
      Split(s, sep) == if s[0] == sep then [""] + rest else [[s[0]] + rest[0]] + rest[1..]
  {
  }

  /** An empty piece in front puts a separator in front of the join. */
  lemma JoinOpenPiece(parts: seq<string>, sep: char)
    requires |parts| >= 1
    ensures Join([""] + parts, sep) == [sep] + Join(parts, sep)
  {
    assert ([""] + parts)[1..] == parts;
  }

  /** Putting a character in front of the first piece puts it in front of the join. */
  lemma JoinGrowFirst(c: char, parts: seq<string>, sep: char)
    requires |parts| >= 1
    ensures Join([[c] + parts[0]] + parts[1..], sep) == [c] + Join(parts, sep)
  {
    var grown := [[c] + parts[0]] + parts[1..];
    assert grown[0] == [c] + parts[0];
    assert grown[1..] == parts[1..];
    if |parts| > 1 {
      assert Join(grown, sep) == ([c] + parts[0]) + [sep] + Join(parts[1..], sep);
    }
  }

  /** Splitting a join of separator-free pieces gives the pieces back. */
  lemma {:induction false} SplitJoin(parts: seq<string>, sep: char)
    requires |parts| >= 1
    requires forall i :: 0 <= i < |parts| ==> sep !in parts[i]
    ensures Split(Join(parts, sep), sep) == parts
  {
    if |parts| == 1 {
      SplitPiece(parts[0], sep);
    } else {
      var t := Join(parts[1..], sep);
      assert Join(parts, sep) == parts[0] + [sep] + t;
      SplitJoin(parts[1..], sep);
      SplitPrefix(parts[0], t, sep);
      assert [parts[0]] + parts[1..] == parts;
    }
  }

  /** A separator-free string is a single piece. */
  lemma {:induction false} SplitPiece(s: string, sep: char)
    requires sep !in s
    ensures Split(s, sep) == [s]
  {
    if |s| > 0 {
      assert s[0] != sep && sep !in s[1..];
      SplitPiece(s[1..], sep);
      assert Split(s, sep) == [[s[0]] + s[1..]] + [];
      assert [s[0]] + s[1..] == s;
    }
  }

  /** A separator-free prefix joins the first piece of what follows it. */
  lemma {:induction false} SplitPrefix(p: string, t: string, sep: char)
    requires sep !in p
    ensures Split(p + [sep] + t, sep) == [p] + Split(t, sep)
  {
    if |p| == 0 {
      assert p + [sep] + t == [sep] + t;
      assert ([sep] + t)[1..] == t;
    } else {
      assert (p + [sep] + t)[1..] == p[1..] + [sep] + t;
      SplitPrefix(p[1..], t, sep);
      assert [p[0]] + p[1..] == p;
    }
  }

  /**
   * `rtrim(s, c)`: drops every trailing `c`. The result is a prefix of `s`
   * that does not end in `c`, and what was dropped consists of `c` only.
   */
  function RTrim(s: string, c: char): (r: string)
    ensures r <= s
    ensures |r| == 0 || r[|r| - 1] != c
    ensures forall i :: |r| <= i < |s| ==> s[i] == c
  {
    if |s| == 0 || s[|s| - 1] != c then s else RTrim(s[..|s| - 1], c)
  }

  /**
   * `strcmp(a, b) <= 0`: character-by-character comparison where a proper
   * prefix sorts first. On UTF-8 text, code-point order and byte order agree.
   */
  predicate LexLeq(a: string, b: string)
  {
    |a| == 0 || (|b| > 0 && (a[0] < b[0] || (a[0] == b[0] && LexLeq(a[1..], b[1..]))))
  }

  lemma {:induction false} LexLeqTotal(a: string, b: string)
    ensures LexLeq(a, b) || LexLeq(b, a)
  {
    if |a| > 0 && |b| > 0 && a[0] == b[0] {
      LexLeqTotal(a[1..], b[1..]);
    }
  }

  lemma {:induction false} LexLeqTransitive(a: string, b: string, c: string)
    requires LexLeq(a, b) && LexLeq(b, c)
    ensures LexLeq(a, c)
  {
    if |a| > 0 && a[0] == b[0] && b[0] == c[0] {
      LexLeqTransitive(a[1..], b[1..], c[1..]);
    }
  }

  lemma {:induction false} LexLeqAntisymmetric(a: string, b: string)
    requires LexLeq(a, b) && LexLeq(b, a)
    ensures a == b
  {
    if |a| > 0 {
      LexLeqAntisymmetric(a[1..], b[1..]);
      assert a == [a[0]] + a[1..];
      assert b == [b[0]] + b[1..];
    }
  }
}

=== FILE: wrappers.dfy ===
/** Failure-compatible wrapper used wherever a PHP lookup can come back empty. */
module Wrappers {

  datatype Option<+T> = None | Some(value: T) {

    /** The wrapped value, or `default` when there is none. */
    function GetOr(default: T): T {
      match this
      case Some(v) => v
      case None => default
    }
  }
}
